=== FILE: README.md ===
# Gear optimizer — a Dafny model of its search and scoring core

Gear_Calculator's `gear_optimizer.py` searches an item catalog for the
loadout with the best survivability. The catalog maps each slot type to its
items, and every item carries a bag of numeric attributes. The optimizer:

- lists the legal candidates of every searched slot type (`generate_gear_list`,
  `legal_item`);
- enumerates every combination with one item per list (`itertools.product`);
- for each loadout, sums the attributes (`get_property_sum`);
- turns the sums into damage-reduction fractions (`calc_damage_reduction`
  and the `calc_*` formulas);
- blends those fractions with the user's damage-type weights into one score
  (`calc_reduction_score`, `scale_reduction_type`);
- reports every loadout whose score reaches the best seen so far
  (`optimize_gear`).

The model follows that pipeline module by module:

| module | file | models |
|---|---|---|
| `Outcomes` | outcomes.dfy | `Option`, `Result`, and the two exceptions that can end a run (`KeyError` for a missing slot type, `ZeroDivisionError`) |
| `Items` | items.dfy | `Item`, `Gear` (filled slots in first-fill order, plus slot → item), building a loadout, `get_property_sum` |
| `Settings`, `Filtering` | filtering.dfy | the run options, `legal_item`, `generate_gear_list` |
| `Reduction` | reduction.dfy | the protection, armor, evasion, stacking and effective-health formulas, and `calc_damage_reduction` |
| `Scoring` | scoring.dfy | `scale_reduction_type` and `calc_reduction_score` |
| `Combinations` | combinations.dfy | `itertools.product` on sequences |
| `Search` | search.dfy | one iteration of the optimizer's loop, the loop itself and `optimize_gear` |
| `Scenario` | scenario.dfy | a worked run: one "boots" slot holding a 5-protection and a 10-protection pair |

Python floats are modelled as Dafny `real`s, so there is no rounding.
Python's float floor division `evasion // 5` is `(evasion / 5.0).Floor`.

The program raises instead of returning errors. Apart from the missing
attribute that `get_property_sum` skips, it catches none of these exceptions. The model returns `Result` values instead:

- `MissingSlotType(t)` when a searched slot type is absent from the catalog
  (the `self.items[type]` lookup).
- `ZeroDivision` when the toughness sum is exactly -8 (armor formula).
- `ZeroDivision` when a stacked reduction is exactly 1 (effective health).
  For the unweighted reduction this never happens. For the scaled score it
  happens only when a blend is exactly 1. Without negative attributes,
  that needs a negative weight or weights summing to more than 1
  (`Scoring.ScoreInRange`).

A fault ends the run. Reports already printed stay printed, so
`OptimizeGear` returns the reports made before the fault together with the
fault itself.

Three facts about the code shape the model:

- **An empty slot is dropped.** A slot whose candidates are all filtered out
  contributes no list at all (`if type_list:`, line 82). The search then runs
  over the remaining slots. Nothing falls back to the slot's
  non-blacklisted items.
- **New bests, not a top-K list.** `optimize_gear` keeps a running best
  starting at 0 and reports a loadout whenever its score is `>=` that best
  (lines 57-65). The reports therefore come in evaluation order with
  non-decreasing scores, and the last one holds the maximum. Nothing is
  sorted or truncated. Returning the N best loadouts instead is still an
  open TODO in the program (line 4).
- **Remainder weighting.** `scale_reduction_type` gives each weighted
  specialised type its weight. The category's own reduction gets
  `1 - Σweights` (lines 200-209). There is no normalisation by the weight
  sum.

## Model

| member | source | states |
|---|---|---|
| `Items.Put` | gear_optimizer.py:26-27 | storing an item in a slot keeps the loadout well formed, fills that slot with the item, leaves every other slot as it was, and appends the slot to the iteration order only on first use |
| `Items.FromLoadout` | gear_optimizer.py:24-27 | a loadout built from entries is well formed and fills exactly the slots the entries name |
| `Items.SlotsOfNamed` | gear_optimizer.py:26-27 | a slot is filled exactly when some entry names it |
| `Items.FromLoadoutLastWins` | gear_optimizer.py:26-27 | when several entries name the same slot, the slot holds the item of the last of them, as repeated `setattr` does |
| `Items.FromLoadoutDrawsFromEntries` | gear_optimizer.py:26-27 | every item of a built loadout is the item of an entry naming that slot |
| `Items.NonNegativeLoadout` | gear_optimizer.py:24-27 | a loadout built from items without negative attributes has none either |
| `Items.Attr` | gear_optimizer.py:151-154 | an item's value for an attribute, 0 when it lacks the key (the `KeyError` → `continue` branch); `Items.PropertySumOfLoadout` and `Scenario.SumOfOne` state the sums it yields |
| `Items.SumOver` | gear_optimizer.py:148-155 | a running attribute sum over items whose attribute values are all non-negative is non-negative |
| `Items.PropertySum` | gear_optimizer.py:148-155 | a loadout's attribute sum is 0 for an empty loadout and non-negative when no item has a negative attribute |
| `Items.SumOverUpdate` | gear_optimizer.py:148-155 | replacing the item of one listed slot changes the sum by exactly the difference of the two items' attributes |
| `Items.PutSum` | gear_optimizer.py:26-27 | placing an item adds its attribute to the loadout's sum and removes the attribute of the item it displaces |
| `Items.PropertySumOfLoadout` | gear_optimizer.py:148-155 | with one entry per slot, the loadout's sum equals the sum over the entries, and an entry lacking the attribute adds 0 (the `KeyError` → `continue` branch) |
| `Filtering.LegalItem` | gear_optimizer.py:96-103 | an item name is legal exactly when it is not blacklisted and, when a non-empty whitelist is given, whitelisted (the tier and type tests are `True or …`); `Filtering.SlotCandidates` and `Filtering.GenerateGearList` state that the lists hold exactly the legal items |
| `Filtering.Skipped` | gear_optimizer.py:73-74 | a slot type is skipped exactly when it is `weapon` and weapons are skipped; `Filtering.GearList` and `Filtering.GearListLists` state that a skipped slot gets no list and cannot raise a `KeyError` |
| `Filtering.SlotCandidates` | gear_optimizer.py:76-80 | a slot's candidate list holds exactly the slot's legal items, each tagged with the slot and taken from the catalog, and is never longer than the catalog's list |
| `Filtering.SlotCandidatesOne` | gear_optimizer.py:77-80 | one catalog item yields its tagged entry exactly when its name is legal |
| `Filtering.SlotCandidatesAppend` | gear_optimizer.py:77-80 | the candidates of a concatenation are the first part's candidates followed by the second part's, so the list keeps the catalog's order; with `SlotCandidatesOne` this determines every candidate list |
| `Filtering.GearList` | gear_optimizer.py:70-84 | listing succeeds exactly when every searched slot type, the skipped weapon aside, is in the catalog; otherwise the first missing type is the one reported |
| `Filtering.GearListOne` | gear_optimizer.py:72-83 | a single item type contributes nothing when it is a skipped weapon slot, raises a `KeyError` when missing from the catalog, and otherwise contributes its candidate list unless that list is empty |
| `Filtering.GearListAppend` | gear_optimizer.py:72-84 | listing a concatenation of item types gives the first part's lists followed by the second part's, so every type's list appears in place, repeated types included; with `GearListOne` this determines every successful listing |
| `Filtering.GearListLists` | gear_optimizer.py:72-83 | every list is non-empty and is the full candidate list of a searched, catalogued, not skipped slot type |
| `Filtering.GearListOrder` | gear_optimizer.py:72-84 | the lists follow the order of the configured item types |
| `Filtering.GearListComplete` | gear_optimizer.py:72-83 | every searched, not skipped slot type with at least one legal item has a list |
| `Filtering.GenerateGearList` | gear_optimizer.py:70-84 | every candidate belongs to its list's slot, comes from the catalog, is not in a skipped weapon slot, is not blacklisted, and is whitelisted when a non-empty whitelist is given |
| `Reduction.ProtectionReduction` | gear_optimizer.py:166-167 | the protection reduction never exceeds 0.8, equals 0.8 from 20 points on, and is non-negative for non-negative protection |
| `Reduction.ProtectionMonotone` | gear_optimizer.py:166-167 | more protection never lowers the reduction |
| `Reduction.ProtectionLinearBelowCap` | gear_optimizer.py:166-167 | up to 20 points each point of protection is worth exactly 1/25 |
| `Reduction.ArmorReduction` | gear_optimizer.py:169-170 | the armor reduction never exceeds 0.8, is non-negative for non-negative armor, and is 0.8 from 100 armor on, whatever the toughness |
| `Reduction.ArmorMonotoneInArmor` | gear_optimizer.py:169-170 | more armor never lowers the armor reduction |
| `Reduction.ArmorMonotoneInToughness` | gear_optimizer.py:169-170 | above -8 toughness, more toughness never lowers the armor reduction for a non-negative expected hit |
| `Reduction.EvasionReduction` | gear_optimizer.py:172-173 | the evasion reduction never exceeds 0.8, equals 0.8 from 20 points on, and is non-negative for non-negative evasion |
| `Reduction.EvasionStep` | gear_optimizer.py:172-173 | evasion is a step function that is constant on each interval [5k, 5k+5) at min(0.2k, 0.8) |
| `Reduction.EvasionMonotone` | gear_optimizer.py:172-173 | more evasion never lowers the evasion reduction |
| `Reduction.SurvivalBounds` | gear_optimizer.py:161-163 | with every layer at most 0.8, at least 0.2ⁿ of the damage gets through n layers; with layers in [0, 1], the fraction let through lies in [0, 1] |
| `Reduction.GeneralReduction` | gear_optimizer.py:157-164 | stacking nothing gives 0, stacking one reduction gives that reduction, layers capped at 0.8 stack to at most 1 − 0.2ⁿ < 1, and layers in [0, 1] stack into [0, 1] |
| `Reduction.GeneralIsComplement` | gear_optimizer.py:157-164 | the empty-argument special case agrees with the product formula 1 − Π(1 − rᵢ) |
| `Reduction.SurvivalZero` | gear_optimizer.py:161-163 | a stack lets no damage through exactly when its first layer is total or the remaining layers let none through |
| `Reduction.SurvivalAppend` | gear_optimizer.py:161-163 | the damage let through by two stacks in sequence is the product of what each stack lets through |
| `Reduction.SurvivalRemoveAt` | gear_optimizer.py:161-163 | taking one layer out of a stack divides out exactly that layer's factor |
| `Reduction.SurvivalPermutation` | gear_optimizer.py:161-163 | the fraction let through depends only on the multiset of layers, not their order |
| `Reduction.GeneralReductionOrderFree` | gear_optimizer.py:157-164 | the stacked reduction is the same for any permutation of its arguments |
| `Reduction.GeneralReductionNested` | gear_optimizer.py:157-164 | stacking two groups of reductions equals stacking the two groups' stacked reductions |
| `Reduction.SpecProtectionReduction` | gear_optimizer.py:180-181 | a specialised protection reduction is capped at 0.8 and, for a non-negative specialised bonus, is at least the general protection reduction |
| `Reduction.SpecEvasionReduction` | gear_optimizer.py:183-184 | a specialised evasion reduction is capped at 0.8 and, for a non-negative specialised bonus, is at least the general evasion reduction |
| `Reduction.BaseHealth` | gear_optimizer.py:176-177 | nominal health, (20 + health sum) · (1 + health-percentage sum); `Reduction.BaseHealthAtLeast20` bounds it and `Reduction.EffectiveHealthUndoesReduction` ties effective health to it |
| `Reduction.BaseHealthAtLeast20` | gear_optimizer.py:176-177 | with non-negative health and health-percentage sums a loadout's nominal health is at least the 20 base points |
| `Reduction.EffectiveHealth` | gear_optimizer.py:175-178 | for a reduction in [0, 1) and non-negative nominal health, effective health is at least nominal health |
| `Reduction.EffectiveHealthMonotone` | gear_optimizer.py:175-178 | for non-negative nominal health, a larger reduction below 1 never lowers effective health |
| `Reduction.EffectiveHealthUndoesReduction` | gear_optimizer.py:175-178 | effective health reduced by the stacked reduction gives back exactly the nominal health |
| `Reduction.Profile` | gear_optimizer.py:115-146 | every reduction of a loadout's profile is at most 0.8 and the stacked reduction stays below 1, whatever the attribute values |
| `Reduction.NonNegativeGearSums` | gear_optimizer.py:148-155 | a loadout without any negative attribute has non-negative sums for every attribute the formulas read |
| `Reduction.ProfileBySums` | gear_optimizer.py:115-146 | two loadouts that agree on the twelve attribute sums the formulas read have the same profile: nothing else about the loadout matters |
| `Reduction.ProfileInRange` | gear_optimizer.py:115-146 | when the twelve attribute sums read are non-negative (other attributes may be negative), the toughness sum is not -8, every reduction lies in [0, 0.8], the stacked one lies in [0, 1 − 0.2³], and true effective health is at least nominal health |
| `Reduction.DamageReduction` | gear_optimizer.py:115-146 | `calc_damage_reduction` fails exactly when the toughness sum is -8, and then with a division by zero; its profile is always capped; when the twelve attribute sums read are non-negative it succeeds, in range, with true effective health at least nominal health |
| `Reduction.NonNegativeGearInRange` | gear_optimizer.py:115-146 | as a corollary, a loadout without any negative attribute gets an in-range profile with true effective health at least nominal health |
| `Scoring.ScaleReductionType` | gear_optimizer.py:200-209 | with no listed type weighted, the blend is the category's own reduction; when the listed weights sum to 1, the category's own reduction drops out |
| `Scoring.ScaleReductionTypeStep` | gear_optimizer.py:200-209 | listing one more damage type adds its weight times the difference between its specialised reduction and the category's own reduction, so with the unweighted case the blend is fixed for every weight table |
| `Scoring.HalfProjectile` | gear_optimizer.py:236-237 | a projectile weight of 0.5 and nothing else blends projectile protection and general protection 50-50, as the `--scaling` help text describes |
| `Scoring.UnweightedIsZero` | gear_optimizer.py:203-207 | types absent from the weight table contribute neither weight nor reduction |
| `Scoring.ArmorScoresGeneral` | gear_optimizer.py:192 | the armor category, having no specialised types, always scores its own reduction |
| `Scoring.ScaledPartBounds` | gear_optimizer.py:203-207 | with non-negative weights, the weighted specialised part lies between 0 and 0.8 times the total weight |
| `Scoring.ScaleBounds` | gear_optimizer.py:200-209 | with non-negative weights summing to at most 1 and reductions in [0, 0.8], the blend lies in [0, 0.8] |
| `Scoring.StackOfThreeBlocks` | gear_optimizer.py:195-197 | three stacked blends block all damage exactly when one of them is total |
| `Scoring.ScoreInRange` | gear_optimizer.py:190-198 | with sane weights and an in-range profile, the stacked score lies in [0, 1 − 0.2³] |
| `Scoring.ReductionScore` | gear_optimizer.py:190-198 | scoring fails, with a division by zero, exactly when one of the three blends is 1; the scaled armor is the armor reduction; with sane weights and an in-range profile it succeeds with a score in [0, 1 − 0.2³] and, for non-negative nominal health, a scaled effective health at least the nominal health |
| `Scoring.ScoreWithoutScaling` | gear_optimizer.py:190-209 | with no weight for any specialised type, a loadout's score is its stacked reduction and its scaled effective health is its true effective health |
| `Combinations.Product` | gear_optimizer.py:58 | `itertools.product` over the candidate lists; `Combinations.ProductCount`, `Combinations.ProductMembership`, `Combinations.ProductOrder` and `Combinations.ProductFirst` state its size, contents and order |
| `Combinations.PrependLength` | gear_optimizer.py:58 | prefixing each head to each tail gives \|heads\| · \|tails\| picks |
| `Combinations.PrependOrder` | gear_optimizer.py:58 | the heads vary slowest among the prefixed picks |
| `Combinations.PrependMembership` | gear_optimizer.py:58 | a pick is produced exactly when it is some head followed by some tail |
| `Combinations.ProductCount` | gear_optimizer.py:58 | the number of combinations is the product of the list lengths |
| `Combinations.CountPositive` | gear_optimizer.py:58 | with no empty list there is at least one combination |
| `Combinations.ProductMembership` | gear_optimizer.py:58 | a pick is a combination exactly when it has one element per list, each from its own list |
| `Combinations.ProductOrder` | gear_optimizer.py:58 | the first list varies slowest, and each of its elements heads a block that runs through the combinations of the other lists |
| `Combinations.ProductFirst` | gear_optimizer.py:58 | the first combination takes the first element of every list |
| `Search.Evaluate` | gear_optimizer.py:59-61 | one iteration fails exactly when `calc_damage_reduction` or `calc_reduction_score` of its result fails, and only by division by zero; on success the gear is the loadout built from the combination, the reductions are that loadout's `calc_damage_reduction` and the score is `calc_reduction_score` of them, so those functions' contracts reach the caller; with non-negative attribute sums and sane weights it succeeds, with true and scaled effective health at least 20 |
| `Search.RunSteps` | gear_optimizer.py:58-61 | the loop evaluates the combinations in order; every value it keeps is its combination's result; it runs to the end unless a fault stops it, and the fault is the failure of the first combination that was not kept |
| `Search.SuccessExtendsRun` | gear_optimizer.py:58-61 | a combination that evaluates successfully, before any fault, extends the run by its result |
| `Search.FaultEndsRun` | gear_optimizer.py:58-61 | the first combination that fails ends the run with its fault, keeping the results before it |
| `Search.FaultIsFinal` | gear_optimizer.py:58-61 | once a fault has stopped the run, later combinations change nothing |
| `Search.IsNewBest` | gear_optimizer.py:63-64 | the reporting rule, stated without `prev_score`: a loadout is reported when its score is non-negative and at least every earlier score; `Search.NewBestIffReachesMax` shows the loop's comparison decides exactly this |
| `Search.NewBests` | gear_optimizer.py:63-65 | the reported loadouts, in evaluation order; `Search.NewBestsExact`, `Search.NewBestsAscend` and `Search.LastReportIsBest` state what they are, and `Search.ReportNewBests` shows the loop computes them |
| `Search.RunningMax` | gear_optimizer.py:57-64 | `prev_score` is at least 0, at least every score so far, and either 0 or one of those scores |
| `Search.NewBestIffReachesMax` | gear_optimizer.py:63-64 | the loop's comparison with `prev_score` holds exactly when the new loadout is non-negative and scores at least as well as every earlier one |
| `Search.NewBestsStep` | gear_optimizer.py:63-65 | one more loadout is reported exactly when its score reaches the running best |
| `Search.NewBestsExact` | gear_optimizer.py:57-65 | every report is a loadout that was a new best when evaluated, and every such loadout is reported |
| `Search.NewBestsAscend` | gear_optimizer.py:57-65 | reported scores are non-negative and never decrease |
| `Search.LastReportIsBest` | gear_optimizer.py:57-65 | when some loadout scores at least 0, something is reported and the last report holds the best score of all |
| `Search.NothingReported` | gear_optimizer.py:57-65 | nothing is reported exactly when every loadout scores below 0 |
| `Search.OptimizeGear` | gear_optimizer.py:54-65 | a missing slot type aborts before any evaluation; otherwise the reports are exactly the new bests among the combinations evaluated, in `itertools.product` order, and the fault is whatever stopped the loop |
| `Search.ReportNewBests` | gear_optimizer.py:57-65 | the loop reports exactly the new bests among the loadouts evaluated before a fault, and returns that fault |
| `Search.CombinationsFromCatalog` | gear_optimizer.py:58 | every combination the search visits draws each entry from the catalog list of its slot |
| `Search.RunOfGoodSteps` | gear_optimizer.py:57-65 | when every combination evaluates to at least 20, the run never faults and its last report holds the best score |
| `Search.CatalogCombinations` | gear_optimizer.py:54-58 | once listing succeeds there is at least one combination, and without negative catalog attributes no combination has one |
| `Search.SafeLoadout` | gear_optimizer.py:59-61 | a loadout whose twelve attribute sums read are non-negative, scored with sane weights, evaluates without fault to at least 20 |
| `Search.SafeLoadouts` | gear_optimizer.py:58-61 | every combination with non-negative attribute sums, scored with sane weights, evaluates without fault to at least 20 |
| `Search.SafeRun` | gear_optimizer.py:57-65 | such combinations run to the end without fault, and the last report holds the best score of all |
| `Search.SafeRunFindsOptimum` | gear_optimizer.py:54-65 | with every searched slot type catalogued, no negative attribute and sane weights, `optimize_gear` evaluates every combination without fault, each scores at least 20, and its last report holds the optimum |
| `Scenario.SumOfOne` | gear_optimizer.py:148-155 | a loadout holding a single item, in any slot, sums to exactly that item's attributes, 0 for an attribute it lacks |
| `Scenario.ProtectionOnlyGeneral` | gear_optimizer.py:132-135 | without armor, toughness or evasion, and for any non-negative expected damage, the stacked reduction is the protection reduction alone |
| `Scenario.NegativeHitArmor` | gear_optimizer.py:169-170 | a negative expected damage of -20 gives gear without armor or toughness an armor reduction of 0.4, so the expected damage must be non-negative above |
| `Scenario.BootsScore` | gear_optimizer.py:59-61 | boots carrying only protection `p` evaluate without fault to 20 base health points inflated by the protection reduction of `p` |
| `Scenario.BootsLoadouts` | gear_optimizer.py:54-84 | the boots catalog yields one list holding both pairs in catalog order, so the search visits the 5-protection pair first |
| `Scenario.BootsRun` | gear_optimizer.py:54-65 | the boots run ends without fault and reports both pairs: the 5-protection pair first with 25 effective health, then the 10-protection pair with 33⅓ |

## Left out

- Reading the catalog from JSON and the command line (`Optimizer.__init__`
  lines 38-49, `parse_arguments` lines 229-241): the catalog and the options
  are parameters. An item's name is carried with the item, as the candidate
  lists carry it.
- `print_results` (lines 211-226): printing is output only. A printed loadout
  is a `Report` in the model, and the `verbose` flag changes nothing else.
- Item tiers and `legal_type` (lines 99-100): both are `True or …`, which is
  always true and evaluates nothing, so legality depends on the name alone.
- The `except KeyError` of `legal_item` (lines 101-102): nothing in its `try`
  can raise a `KeyError`, so the branch cannot be reached.
- The `float(...)` coercions (lines 152, 206-207): catalog and weight values
  are reals already. A value that does not parse is a format error of the
  input, outside the model.
- Floating-point rounding: arithmetic is exact over the reals. The float
  program can differ from the model in the last bits, for example where a
  score ties the running best.
- The cost of the exhaustive enumeration: the model states what the
  search reports, not how long it takes.

=== FILE: combinations.dfy ===
/** `itertools.product`, which enumerates the loadouts the optimizer searches. */
module Combinations {

  /** Every way of picking one element from each list, the first list
      varying slowest. No lists give one empty pick. */
  function Product<T>(lists: seq<seq<T>>): seq<seq<T>>
    decreases |lists|
  {
    if lists == [] then [[]] else Prepend(lists[0], Product(lists[1..]))
  }

  /** Each head followed by each tail, heads varying slowest. */
  function Prepend<T>(heads: seq<T>, tails: seq<seq<T>>): seq<seq<T>> {
    if heads == [] then []
    else seq(|tails|, j requires 0 <= j < |tails| => [heads[0]] + tails[j]) + Prepend(heads[1..], tails)
  }

  lemma {:induction false} PrependLength<T>(heads: seq<T>, tails: seq<seq<T>>)
    ensures |Prepend(heads, tails)| == |heads| * |tails|
  {
    if heads != [] {
      PrependLength(heads[1..], tails);
    }
  }

  /** The `k`-th tail after the `i`-th head: heads vary slowest. */
  lemma {:induction false} PrependOrder<T>(heads: seq<T>, tails: seq<seq<T>>, i: nat, k: nat)
    requires i < |heads| && k < |tails|
    ensures i * |tails| + k < |Prepend(heads, tails)|
    ensures Prepend(heads, tails)[i * |tails| + k] == [heads[i]] + tails[k]
  {
    PrependLength(heads, tails);
    var first := seq(|tails|, j requires 0 <= j < |tails| => [heads[0]] + tails[j]);
    if 0 < i {
      PrependOrder(heads[1..], tails, i - 1, k);
      PrependLength(heads[1..], tails);
      assert i * |tails| + k == |first| + ((i - 1) * |tails| + k);
    }
  }

  /** A pick is produced exactly when it is some head followed by some tail. */
  lemma {:induction false} PrependMembership<T>(heads: seq<T>, tails: seq<seq<T>>, p: seq<T>)
    ensures p in Prepend(heads, tails) <==> 0 < |p| && p[0] in heads && p[1..] in tails
  {
    if heads != [] {
      var first := seq(|tails|, j requires 0 <= j < |tails| => [heads[0]] + tails[j]);
      PrependMembership(heads[1..], tails, p);
      assert p in Prepend(heads, tails) <==> p in first || p in Prepend(heads[1..], tails);
      if p in first {
        var j :| 0 <= j < |tails| && first[j] == p;
        assert p[1..] == tails[j];
      }
      if 0 < |p| && p[0] == heads[0] && p[1..] in tails {
        var j :| 0 <= j < |tails| && tails[j] == p[1..];
        assert first[j] == p;
      }
    }
  }

  /** The number of combinations: the product of the list lengths. */
  function Count<T>(lists: seq<seq<T>>): nat
    decreases |lists|
  {
    if lists == [] then 1 else |lists[0]| * Count(lists[1..])
  }

  lemma {:induction false} ProductCount<T>(lists: seq<seq<T>>)
    ensures |Product(lists)| == Count(lists)
    decreases |lists|
  {
    if lists != [] {
      ProductCount(lists[1..]);
      PrependLength(lists[0], Product(lists[1..]));
    }
  }

  /** With no empty list there is at least one combination. */
  lemma {:induction false} CountPositive<T>(lists: seq<seq<T>>)
    requires forall i :: 0 <= i < |lists| ==> lists[i] != []
    ensures 0 < Count(lists)
    decreases |lists|
  {
    if lists != [] {
      CountPositive(lists[1..]);
    }
  }

  /** A pick is produced exactly when it has one element per list, each
      taken from its own list. */
  lemma {:induction false} ProductMembership<T>(lists: seq<seq<T>>, p: seq<T>)
    ensures p in Product(lists) <==> |p| == |lists| && forall i :: 0 <= i < |lists| ==> p[i] in lists[i]
    decreases |lists|
  {
    if lists == [] {
      assert p in Product(lists) <==> p == [];
    } else {
      PrependMembership(lists[0], Product(lists[1..]), p);
      if p != [] {
        ProductMembership(lists[1..], p[1..]);
        if |p| == |lists| && forall i :: 0 <= i < |lists| ==> p[i] in lists[i] {
          forall i | 0 <= i < |lists[1..]|
            ensures p[1..][i] in lists[1..][i]
          {
            assert p[i + 1] in lists[i + 1];
          }
        }
        if p in Product(lists) {
          forall i | 0 <= i < |lists|
            ensures p[i] in lists[i]
          {
            if 0 < i {
              assert p[1..][i - 1] in lists[1..][i - 1];
            }
          }
        }
      }
    }
  }

  /** The first list varies slowest: its `i`-th element heads the `i`-th
      block of picks, each block running through the picks of the other lists. */
  lemma ProductOrder<T>(lists: seq<seq<T>>, i: nat, k: nat)
    requires 0 < |lists| && i < |lists[0]| && k < |Product(lists[1..])|
    ensures i * |Product(lists[1..])| + k < |Product(lists)|
    ensures Product(lists)[i * |Product(lists[1..])| + k] == [lists[0][i]] + Product(lists[1..])[k]
  {
    PrependOrder(lists[0], Product(lists[1..]), i, k);
  }

  /** The first pick takes the first element of every list. */
  lemma {:induction false} ProductFirst<T>(lists: seq<seq<T>>)
    requires forall i :: 0 <= i < |lists| ==> lists[i] != []
    ensures 0 < |Product(lists)| && |Product(lists)[0]| == |lists|
    ensures forall i :: 0 <= i < |lists| ==> Product(lists)[0][i] == lists[i][0]
    decreases |lists|
  {
    ProductCount(lists);
    CountPositive(lists);
    if lists != [] {
      ProductFirst(lists[1..]);
      PrependOrder(lists[0], Product(lists[1..]), 0, 0);
      var p := Product(lists)[0];
      forall i | 0 <= i < |lists|
        ensures p[i] == lists[i][0]
      {
        if 0 < i {
          assert p[i] == Product(lists[1..])[0][i - 1];
        }
      }
    }
  }
}

=== FILE: filtering.dfy ===
/** The run configuration and the candidate lists searched by the optimizer
    (`Optimizer.__init__`'s fields, `generate_gear_list` and `legal_item`). */
module Settings {
  import opened Outcomes

  /** The optimizer's configuration, as read from its command line.
      `whitelist` is None when not given; an empty whitelist acts like None. */
  datatype Options = Options(
    whitelist: Option<seq<string>>,
    blacklist: seq<string>,
    itemTypes: seq<string>,
    typeScaling: map<string, real>,
    expectedDamage: real,
    skipWeapon: bool)
}

module Filtering {
  import opened Outcomes
  import opened Items
  import opened Settings

  /** The item catalog: slot type to that slot's items, in file order. */
  type Catalog = map<string, seq<Item>>

  /** No whitelist restricts the search (none given, or an empty one). */
  predicate NoWhitelist(opts: Options) {
    opts.whitelist.None? || opts.whitelist.value == []
  }

  /** An item name may be searched: it is not blacklisted and, when a
      whitelist is in force, it is whitelisted. */
  predicate LegalItem(opts: Options, name: string) {
    name !in opts.blacklist && (NoWhitelist(opts) || name in opts.whitelist.value)
  }

  /** The main-hand weapon slot, left out of the search when `skipWeapon` is set. */
  predicate Skipped(opts: Options, slot: string) {
    slot == "weapon" && opts.skipWeapon
  }

  /** The legal items of one slot, tagged with the slot, in catalog order. */
  function SlotCandidates(opts: Options, slot: string, items: seq<Item>): (l: seq<Entry>)
    ensures |l| <= |items|
    ensures forall e :: e in l ==> e.slot == slot && e.item in items && LegalItem(opts, e.item.name)
    ensures forall it :: it in items && LegalItem(opts, it.name) ==> Entry(slot, it) in l
  {
    if items == [] then []
    else
      (if LegalItem(opts, items[0].name) then [Entry(slot, items[0])] else [])
      + SlotCandidates(opts, slot, items[1..])
  }

  /** One catalog item yields its entry exactly when it is legal. */
  lemma SlotCandidatesOne(opts: Options, slot: string, it: Item)
    ensures SlotCandidates(opts, slot, [it]) == if LegalItem(opts, it.name) then [Entry(slot, it)] else []
  {
    assert [it][1..] == [];
  }

  /** Filtering a concatenation filters each part in turn, so the candidates
      keep the catalog's order. With `SlotCandidatesOne` this fixes the list
      of every catalog sequence. */
  lemma {:induction false} SlotCandidatesAppend(opts: Options, slot: string, a: seq<Item>, b: seq<Item>)
    ensures SlotCandidates(opts, slot, a + b) == SlotCandidates(opts, slot, a) + SlotCandidates(opts, slot, b)
  {
    if a == [] {
      assert a + b == b;
    } else {
      assert (a + b)[0] == a[0];
      assert (a + b)[1..] == a[1..] + b;
      SlotCandidatesAppend(opts, slot, a[1..], b);
    }
  }

  /** The slot a candidate list belongs to. */
  function ListSlot(l: seq<Entry>): string {
    if l == [] then "" else l[0].slot
  }

  function Slots(lists: seq<seq<Entry>>): (r: seq<string>)
    ensures |r| == |lists|
    ensures forall i :: 0 <= i < |lists| ==> r[i] == ListSlot(lists[i])
  {
    if lists == [] then [] else [ListSlot(lists[0])] + Slots(lists[1..])
  }

  /** `xs` is `ys` with some elements removed, order kept. */
  ghost predicate IsSubsequence(xs: seq<string>, ys: seq<string>)
    decreases |ys|
  {
    if xs == [] then true
    else if ys == [] then false
    else (xs[0] == ys[0] && IsSubsequence(xs[1..], ys[1..])) || IsSubsequence(xs, ys[1..])
  }

  /** The candidate lists of the given item types, in order: a skipped weapon
      slot and a slot with no legal item contribute no list. A searched type
      missing from the catalog aborts with a KeyError, and the first such
      type is the one reported. */
  function GearList(catalog: Catalog, opts: Options, types: seq<string>): (r: Result<seq<seq<Entry>>>)
    ensures r.Success? <==> forall i :: 0 <= i < |types| && !Skipped(opts, types[i]) ==> types[i] in catalog
    ensures r.Failure? ==>
              exists i :: && 0 <= i < |types|
                          && r.error == MissingSlotType(types[i])
                          && !Skipped(opts, types[i]) && types[i] !in catalog
                          && forall j :: 0 <= j < i ==> Skipped(opts, types[j]) || types[j] in catalog
  {
    if types == [] then Success([])
    else
      var t := types[0];
      assert forall i :: 1 <= i < |types| ==> types[i] == types[1..][i - 1];
      var rest := GearList(catalog, opts, types[1..]);
      if Skipped(opts, t) then rest
      else if t !in catalog then Failure(MissingSlotType(t))
      else if rest.Failure? then rest
      else
        var l := SlotCandidates(opts, t, catalog[t]);
        if l == [] then rest else Success([l] + rest.value)
  }

  /** A single item type contributes nothing when skipped, aborts when
      missing from the catalog, and otherwise contributes its candidate list
      unless that list is empty. */
  lemma GearListOne(catalog: Catalog, opts: Options, t: string)
    ensures GearList(catalog, opts, [t])
         == if Skipped(opts, t) then Success([])
            else if t !in catalog then Failure(MissingSlotType(t))
            else if SlotCandidates(opts, t, catalog[t]) == [] then Success([])
            else Success([SlotCandidates(opts, t, catalog[t])])
  {
    assert [t][1..] == [];
    if t in catalog {
      var l := SlotCandidates(opts, t, catalog[t]);
      assert [l] + [] == [l];
    }
  }

  /** Listing a concatenation of item types lists each part in turn: every
      type contributes its list in place, repeated types included. With
      `GearListOne` this fixes the successful listing of every type sequence. */
  lemma {:induction false} GearListAppend(catalog: Catalog, opts: Options, a: seq<string>, b: seq<string>)
    requires GearList(catalog, opts, a).Success? && GearList(catalog, opts, b).Success?
    ensures GearList(catalog, opts, a + b)
         == Success(GearList(catalog, opts, a).value + GearList(catalog, opts, b).value)
  {
    if a == [] {
      assert a + b == b;
      assert GearList(catalog, opts, a).value == [];
      assert [] + GearList(catalog, opts, b).value == GearList(catalog, opts, b).value;
    } else {
      var t := a[0];
      assert (a + b)[0] == t;
      assert (a + b)[1..] == a[1..] + b;
      GearListAppend(catalog, opts, a[1..], b);
      var rest, restB := GearList(catalog, opts, a[1..]).value, GearList(catalog, opts, b).value;
      if !Skipped(opts, t) {
        var l := SlotCandidates(opts, t, catalog[t]);
        if l != [] {
          assert GearList(catalog, opts, a).value == [l] + rest;
          assert GearList(catalog, opts, a + b).value == [l] + (rest + restB);
          assert [l] + (rest + restB) == ([l] + rest) + restB;
        }
      }
    }
  }

  /** Each list is the non-empty candidate list of a searched, listed, not
      skipped slot type. */
  lemma {:induction false} GearListLists(catalog: Catalog, opts: Options, types: seq<string>)
    requires GearList(catalog, opts, types).Success?
    ensures var lists := GearList(catalog, opts, types).value;
            forall i :: 0 <= i < |lists| ==>
              && lists[i] != []
              && var s := ListSlot(lists[i]);
              && s in types && s in catalog && !Skipped(opts, s)
              && lists[i] == SlotCandidates(opts, s, catalog[s])
  {
    if types != [] {
      var t := types[0];
      GearListLists(catalog, opts, types[1..]);
      if !Skipped(opts, t) {
        var l := SlotCandidates(opts, t, catalog[t]);
        if l != [] {
          assert ListSlot(l) == t;
        }
      }
    }
  }

  /** The lists follow the order of the item types. */
  lemma {:induction false} GearListOrder(catalog: Catalog, opts: Options, types: seq<string>)
    requires GearList(catalog, opts, types).Success?
    ensures IsSubsequence(Slots(GearList(catalog, opts, types).value), types)
  {
    if types != [] {
      var t := types[0];
      var rest := GearList(catalog, opts, types[1..]);
      GearListOrder(catalog, opts, types[1..]);
      var lists := GearList(catalog, opts, types).value;
      if lists == rest.value {
        assert IsSubsequence(Slots(lists), types);
      } else {
        var l := SlotCandidates(opts, t, catalog[t]);
        assert ListSlot(l) == t;
        assert Slots(lists) == [t] + Slots(rest.value);
      }
    }
  }

  /** No searched type with a legal item is missing from the lists. */
  lemma {:induction false} GearListComplete(catalog: Catalog, opts: Options, types: seq<string>)
    requires GearList(catalog, opts, types).Success?
    ensures forall t :: (t in types && !Skipped(opts, t) && t in catalog && SlotCandidates(opts, t, catalog[t]) != [])
                          ==> t in Slots(GearList(catalog, opts, types).value)
  {
    if types != [] {
      var t := types[0];
      var rest := GearList(catalog, opts, types[1..]);
      GearListComplete(catalog, opts, types[1..]);
      var lists := GearList(catalog, opts, types).value;
      if lists != rest.value {
        var l := SlotCandidates(opts, t, catalog[t]);
        assert ListSlot(l) == t;
        assert Slots(lists) == [t] + Slots(rest.value);
      }
    }
  }

  /** `generate_gear_list`: the candidate lists of the configured item types. */
  function GenerateGearList(catalog: Catalog, opts: Options): (r: Result<seq<seq<Entry>>>)
    ensures r.Success? ==> forall i, e :: 0 <= i < |r.value| && e in r.value[i] ==>
              && e.slot == ListSlot(r.value[i])
              && e.slot in catalog && e.item in catalog[e.slot]
              && !(e.slot == "weapon" && opts.skipWeapon)
              && e.item.name !in opts.blacklist
              && (NoWhitelist(opts) || e.item.name in opts.whitelist.value)
  {
    var r := GearList(catalog, opts, opts.itemTypes);
    if r.Success? then
      GearListLists(catalog, opts, opts.itemTypes);
      r
    else r
  }
}

=== FILE: items.dfy ===
/** Items and loadouts (`Item` and `Gear` in gear_optimizer.py), and the
    per-loadout attribute sum every reduction formula starts from. */
module Items {

  /** A catalog item: its name and its open bag of numeric attributes
      ("protection", "armor", "armor_t", "health", ...). */
  datatype Item = Item(name: string, data: map<string, real>)

  /** An element of a slot's candidate list: an item tagged with its slot type. */
  datatype Entry = Entry(slot: string, item: Item)

  /** A loadout. `items` says which item occupies each slot; `slots` lists the
      slots in the order they were first filled, which is the order in which
      the loadout's attributes are iterated. */
  datatype Gear = Gear(slots: seq<string>, items: map<string, Item>) {

    /** Every slot is listed exactly once, and only filled slots are listed. */
    ghost predicate Valid() {
      && (forall i, j :: 0 <= i < j < |slots| ==> slots[i] != slots[j])
      && (forall s :: s in items <==> s in slots)
    }
  }

  const EmptyGear := Gear([], map[])

  /** The value of `property` on `item`; an item lacking the attribute contributes 0. */
  function Attr(item: Item, property: string): real {
    if property in item.data then item.data[property] else 0.0
  }

  ghost predicate NonNegativeItem(item: Item) {
    forall k :: k in item.data ==> 0.0 <= item.data[k]
  }

  ghost predicate NonNegativeGear(g: Gear) {
    forall s :: s in g.items ==> NonNegativeItem(g.items[s])
  }

  /** Places `e.item` in slot `e.slot`, replacing whatever was there. */
  function Put(g: Gear, e: Entry): (r: Gear)
    requires g.Valid()
    ensures r.Valid()
    ensures r.items.Keys == g.items.Keys + {e.slot}
    ensures r.items[e.slot] == e.item
    ensures forall s :: s in g.items && s != e.slot ==> r.items[s] == g.items[s]
    ensures e.slot in g.items ==> r.slots == g.slots
    ensures e.slot !in g.items ==> r.slots == g.slots + [e.slot]
  {
    if e.slot in g.items then Gear(g.slots, g.items[e.slot := e.item])
    else Gear(g.slots + [e.slot], g.items[e.slot := e.item])
  }

  /** The slot types the entries name. */
  function SlotsOf(loadout: seq<Entry>): set<string> {
    if loadout == [] then {} else SlotsOf(loadout[..|loadout| - 1]) + {loadout[|loadout| - 1].slot}
  }

  /** A slot type is among `SlotsOf` exactly when some entry names it. */
  lemma {:induction false} SlotsOfNamed(loadout: seq<Entry>)
    ensures forall i :: 0 <= i < |loadout| ==> loadout[i].slot in SlotsOf(loadout)
    ensures forall s :: s in SlotsOf(loadout) ==> exists i :: 0 <= i < |loadout| && loadout[i].slot == s
  {
    if loadout != [] {
      var n := |loadout| - 1;
      var prefix := loadout[..n];
      SlotsOfNamed(prefix);
      assert forall i :: 0 <= i < n ==> prefix[i] == loadout[i];
    }
  }

  /** Builds a loadout from one candidate per slot list, in order; when two
      entries name the same slot the later one wins. */
  function FromLoadout(loadout: seq<Entry>): (g: Gear)
    ensures g.Valid()
    ensures g.items.Keys == SlotsOf(loadout)
  {
    if loadout == [] then EmptyGear
    else
      var n := |loadout| - 1;
      Put(FromLoadout(loadout[..n]), loadout[n])
  }

  /** The item of the last entry naming slot `s`. */
  function LastItemFor(loadout: seq<Entry>, s: string): Item
    requires s in SlotsOf(loadout)
  {
    var n := |loadout| - 1;
    if loadout[n].slot == s then loadout[n].item else LastItemFor(loadout[..n], s)
  }

  /** When entries share a slot, the last of them wins. */
  lemma {:induction false} FromLoadoutLastWins(loadout: seq<Entry>)
    ensures forall s :: s in FromLoadout(loadout).items ==> FromLoadout(loadout).items[s] == LastItemFor(loadout, s)
  {
    if loadout != [] {
      var n := |loadout| - 1;
      FromLoadoutLastWins(loadout[..n]);
    }
  }

  /** Every item of a built loadout is the item of one of the entries it was built from. */
  lemma {:induction false} FromLoadoutDrawsFromEntries(loadout: seq<Entry>)
    ensures forall s :: s in FromLoadout(loadout).items ==>
              exists i :: 0 <= i < |loadout| && loadout[i].slot == s && FromLoadout(loadout).items[s] == loadout[i].item
  {
    if loadout != [] {
      var n := |loadout| - 1;
      var prefix := loadout[..n];
      FromLoadoutDrawsFromEntries(prefix);
      var g := FromLoadout(loadout);
      forall s | s in g.items
        ensures exists i :: 0 <= i < |loadout| && loadout[i].slot == s && g.items[s] == loadout[i].item
      {
        if s == loadout[n].slot {
          assert g.items[s] == loadout[n].item;
        } else {
          var i :| 0 <= i < |prefix| && prefix[i].slot == s && FromLoadout(prefix).items[s] == prefix[i].item;
          assert loadout[i] == prefix[i];
        }
      }
    }
  }

  /** A loadout built from items without negative attributes has none either. */
  ghost predicate NonNegativeEntries(loadout: seq<Entry>) {
    forall i :: 0 <= i < |loadout| ==> NonNegativeItem(loadout[i].item)
  }

  lemma NonNegativeLoadout(loadout: seq<Entry>)
    requires NonNegativeEntries(loadout)
    ensures NonNegativeGear(FromLoadout(loadout))
  {
    FromLoadoutDrawsFromEntries(loadout);
  }

  ghost predicate DistinctSlots(loadout: seq<Entry>) {
    forall i, j :: 0 <= i < j < |loadout| ==> loadout[i].slot != loadout[j].slot
  }

  /** The attribute `property` of whatever occupies slot `s`; 0 for an empty slot. */
  function SlotAttr(items: map<string, Item>, s: string, property: string): real {
    if s in items then Attr(items[s], property) else 0.0
  }

  /** Running sum of `property` over `slots`, accumulated front to back. */
  function SumOver(slots: seq<string>, items: map<string, Item>, property: string): (r: real)
    ensures (forall s :: s in items ==> 0.0 <= Attr(items[s], property)) ==> 0.0 <= r
  {
    if slots == [] then 0.0
    else SumOver(slots[..|slots| - 1], items, property) + SlotAttr(items, slots[|slots| - 1], property)
  }

  /** The sum of `property` over every item of the loadout. */
  function PropertySum(g: Gear, property: string): (r: real)
    ensures NonNegativeGear(g) ==> 0.0 <= r
    ensures g.slots == [] ==> r == 0.0
  {
    SumOver(g.slots, g.items, property)
  }

  /** Reference sum over the entries of a loadout, one term per entry. */
  function LoadoutSum(loadout: seq<Entry>, property: string): real {
    if loadout == [] then 0.0
    else LoadoutSum(loadout[..|loadout| - 1], property) + Attr(loadout[|loadout| - 1].item, property)
  }

  lemma {:induction false} SumOverUpdate(slots: seq<string>, items: map<string, Item>, s: string, item: Item, property: string)
    requires forall i, j :: 0 <= i < j < |slots| ==> slots[i] != slots[j]
    ensures SumOver(slots, items[s := item], property)
         == SumOver(slots, items, property)
            + (if s in slots then Attr(item, property) - SlotAttr(items, s, property) else 0.0)
  {
    if slots != [] {
      var prefix := slots[..|slots| - 1];
      var last := slots[|slots| - 1];
      SumOverUpdate(prefix, items, s, item, property);
      assert s in slots <==> s in prefix || s == last;
      if s == last {
        assert s !in prefix;
      }
    }
  }

  /** Putting an item in a slot adds its attribute and removes that of the item it displaces. */
  lemma {:induction false} PutSum(g: Gear, e: Entry, property: string)
    requires g.Valid()
    ensures PropertySum(Put(g, e), property)
         == PropertySum(g, property) - SlotAttr(g.items, e.slot, property) + Attr(e.item, property)
  {
    var items' := g.items[e.slot := e.item];
    SumOverUpdate(g.slots, g.items, e.slot, e.item, property);
    if e.slot !in g.items {
      var slots' := g.slots + [e.slot];
      assert slots'[..|slots'| - 1] == g.slots;
      assert SumOver(slots', items', property)
          == SumOver(g.slots, items', property) + SlotAttr(items', e.slot, property);
    }
  }

  /** For a loadout with one entry per slot, the loadout's attribute sum adds
      the attribute of every entry, entries lacking it contributing 0. */
  lemma {:induction false} PropertySumOfLoadout(loadout: seq<Entry>, property: string)
    requires DistinctSlots(loadout)
    ensures PropertySum(FromLoadout(loadout), property) == LoadoutSum(loadout, property)
  {
    if loadout != [] {
      var prefix := loadout[..|loadout| - 1];
      var e := loadout[|loadout| - 1];
      assert DistinctSlots(prefix);
      PropertySumOfLoadout(prefix, property);
      var g' := FromLoadout(prefix);
      SlotsOfNamed(prefix);
      assert e.slot !in g'.items;
      PutSum(g', e, property);
    }
  }
}

=== FILE: outcomes.dfy ===
/** Failure-carrying wrappers shared by the optimizer modules.

    The optimizer has no error handling of its own: a missing catalog entry
    or a division by zero raises and ends the run. Those exceptions are the
    `Fault` values below, carried by `Result`. */
module Outcomes {

  datatype Option<+T> = None | Some(value: T)

  /** The exceptions that abort a run of the optimizer. */
  datatype Fault =
    | MissingSlotType(slot: string)  // KeyError: a configured item type has no catalog entry
    | ZeroDivision                   // ZeroDivisionError in a reduction or health formula

  /** Either a value or the fault that aborted its computation; usable with `:-`. */
  datatype Result<+R> = Success(value: R) | Failure(error: Fault) {

    predicate IsFailure() {
      Failure?
    }

    function PropagateFailure<U>(): Result<U>
      requires Failure?
    {
      Failure(error)
    }

    function Extract(): R
      requires Success?
    {
      value
    }
  }
}

=== FILE: reduction.dfy ===
/** The damage-reduction calculator: pure formulas from per-loadout attribute
    sums to reduction fractions and effective health (`calc_damage_reduction`
    and the `calc_*` helpers it calls). */
module Reduction {
  import opened Outcomes
  import opened Items

  /** Python's `min`/`max` on two numbers (the first argument wins ties). */
  function Min(a: real, b: real): real { if b < a then b else a }
  function Max(a: real, b: real): real { if b > a then b else a }

  /** The ceiling every single reduction is clamped to. */
  const Cap: real := 0.8

  /** General protection: 4% per point, capped at 80%. */
  function ProtectionReduction(protection: real): (r: real)
    ensures r <= Cap
    ensures 20.0 <= protection ==> r == Cap
    ensures 0.0 <= protection ==> 0.0 <= r
  {
    Min(protection * 0.04, 0.8)
  }

  lemma ProtectionMonotone(p: real, q: real)
    requires p <= q
    ensures ProtectionReduction(p) <= ProtectionReduction(q)
  {
  }

  /** Below the cap protection is linear: each point is worth 1/25. */
  lemma ProtectionLinearBelowCap(p: real)
    requires p <= 20.0
    ensures ProtectionReduction(p) == p / 25.0
  {
  }

  /** The armor formula divides by `2 + toughness/4`; it raises for toughness -8. */
  predicate ArmorDefined(toughness: real) {
    2.0 + toughness / 4.0 != 0.0
  }

  /** Armor: the larger of armor/5 and armor less the expected hit scaled down
      by toughness, capped at 20 points, as a fraction of 25. */
  function ArmorReduction(armor: real, toughness: real, expectedDamage: real): (r: real)
    requires ArmorDefined(toughness)
    ensures r <= Cap
    ensures 0.0 <= armor ==> 0.0 <= r
    ensures 100.0 <= armor ==> r == Cap
  {
    Min(20.0, Max(armor / 5.0, armor - expectedDamage / (2.0 + toughness / 4.0))) / 25.0
  }

  lemma ArmorMonotoneInArmor(a: real, a': real, t: real, ed: real)
    requires ArmorDefined(t) && a <= a'
    ensures ArmorReduction(a, t, ed) <= ArmorReduction(a', t, ed)
  {
  }

  /** For a non-negative expected hit, more toughness never lowers the armor reduction. */
  lemma ArmorMonotoneInToughness(a: real, t: real, t': real, ed: real)
    requires -8.0 < t <= t' && 0.0 <= ed
    ensures ArmorReduction(a, t, ed) <= ArmorReduction(a, t', ed)
  {
    var d, d' := 2.0 + t / 4.0, 2.0 + t' / 4.0;
    Reciprocal(d, d');
    MulMono(ed, ed, 1.0 / d', 1.0 / d);
    assert ed / d' == ed * (1.0 / d') && ed / d == ed * (1.0 / d);
  }

  /** Evasion: 20% per full 5 points, capped at 80%. */
  function EvasionReduction(evasion: real): (r: real)
    ensures r <= Cap
    ensures 20.0 <= evasion ==> r == Cap
    ensures 0.0 <= evasion ==> 0.0 <= r
  {
    Min((evasion / 5.0).Floor as real * 0.2, 0.8)
  }

  /** Evasion is a step function: constant on each [5k, 5k + 5). */
  lemma EvasionStep(e: real, k: int)
    requires 5.0 * k as real <= e < 5.0 * k as real + 5.0
    ensures EvasionReduction(e) == Min(k as real * 0.2, 0.8)
  {
    assert (e / 5.0).Floor == k;
  }

  lemma EvasionMonotone(e: real, e': real)
    requires e <= e'
    ensures EvasionReduction(e) <= EvasionReduction(e')
  {
    var k, k' := (e / 5.0).Floor, (e' / 5.0).Floor;
    assert k as real <= e / 5.0 <= e' / 5.0 < k' as real + 1.0;
    assert k <= k';
    assert k as real * 0.2 <= k' as real * 0.2;
  }

  /** `b` to the power `n`. */
  function Pow(b: real, n: nat): (r: real)
    ensures 0.0 < b ==> 0.0 < r
  {
    if n == 0 then 1.0 else b * Pow(b, n - 1)
  }

  /** The fraction of damage that gets through every layer: the product of
      `1 - r` over the reductions. */
  function Survival(rs: seq<real>): real {
    SurvivalProduct(rs)
  }

  /** The product behind `Survival`, first factor outermost. Statements about
      stacking name `Survival`, so each of them unfolds this product by one
      layer only. */
  function SurvivalProduct(rs: seq<real>): real {
    if rs == [] then 1.0 else (1.0 - rs[0]) * SurvivalProduct(rs[1..])
  }

  lemma MulMono(a: real, b: real, c: real, d: real)
    requires 0.0 <= a <= b && 0.0 <= c <= d
    ensures a * c <= b * d
  {
    assert a * c <= b * c;
    assert b * c <= b * d;
  }

  /** Capped reductions let at least 20% of the damage through per layer;
      reductions in [0, 1] let through a fraction in [0, 1]. */
  lemma {:induction false} SurvivalBounds(rs: seq<real>)
    ensures (forall i :: 0 <= i < |rs| ==> rs[i] <= Cap) ==> Pow(0.2, |rs|) <= Survival(rs)
    ensures (forall i :: 0 <= i < |rs| ==> 0.0 <= rs[i] <= 1.0) ==> 0.0 <= Survival(rs) <= 1.0
  {
    if rs != [] {
      var tail := rs[1..];
      var rest := Survival(tail);
      var f := 1.0 - rs[0];
      SurvivalBounds(tail);
      assert forall i :: 0 <= i < |tail| ==> tail[i] == rs[i + 1];
      assert Survival(rs) == f * rest;
      if forall i :: 0 <= i < |rs| ==> rs[i] <= Cap {
        assert Pow(0.2, |tail|) <= rest;
        MulMono(0.2, f, Pow(0.2, |tail|), rest);
      }
      if forall i :: 0 <= i < |rs| ==> 0.0 <= rs[i] <= 1.0 {
        MulMono(f, 1.0, rest, 1.0);
        MulMono(0.0, f, 0.0, rest);
      }
    }
  }

  /** Multiplicative stacking of independent reductions: 1 - Π(1 - rᵢ), and 0
      for no reductions at all. */
  function GeneralReduction(rs: seq<real>): (r: real)
    ensures |rs| == 1 ==> r == rs[0]
    ensures |rs| == 0 ==> r == 0.0
    ensures (forall i :: 0 <= i < |rs| ==> rs[i] <= Cap) ==> r <= 1.0 - Pow(0.2, |rs|) < 1.0
    ensures (forall i :: 0 <= i < |rs| ==> 0.0 <= rs[i] <= 1.0) ==> 0.0 <= r <= 1.0
  {
    SurvivalBounds(rs);
    if |rs| == 0 then 0.0
    else
      assert |rs| == 1 ==> rs[1..] == [] && Survival(rs[1..]) == 1.0;
      1.0 - Survival(rs)
  }

  /** The empty-argument special case agrees with the product formula. */
  lemma {:induction false} GeneralIsComplement(rs: seq<real>)
    ensures GeneralReduction(rs) == 1.0 - Survival(rs)
  {
  }

  /** One layer of the product: the first reduction's factor times the rest. */
  lemma SurvivalCons(b: seq<real>)
    requires 0 < |b|
    ensures Survival(b) == (1.0 - b[0]) * Survival(b[1..])
  {
  }

  /** A stack lets nothing through exactly when its first layer is total or the rest lets nothing through. */
  lemma SurvivalZero(b: seq<real>)
    requires 0 < |b|
    ensures Survival(b) == 0.0 <==> b[0] == 1.0 || Survival(b[1..]) == 0.0
  {
    SurvivalCons(b);
    ProductZero(1.0 - b[0], Survival(b[1..]), Survival(b));
  }

  /** A product vanishes exactly when a factor does. */
  lemma ProductZero(a: real, b: real, ab: real)
    requires ab == a * b
    ensures ab == 0.0 <==> a == 0.0 || b == 0.0
  {
  }

  /** Multiplication is associative, stated for the shape `Survival` unfolds to. */
  lemma Regroup(p: real, q: real, y: real, sq: real, all: real, pq: real)
    requires all == p * sq && sq == q * y && pq == p * q
    ensures all == pq * y
  {
  }

  /** Multiplication is commutative, stated for the shape `Survival` unfolds to. */
  lemma Swap(p: real, q: real, all: real, other: real)
    requires all == p * q && other == q * p
    ensures all == other
  {
  }

  lemma {:induction false} SurvivalAppend(a: seq<real>, b: seq<real>)
    ensures Survival(a + b) == Survival(a) * Survival(b)
  {
    if a == [] {
      assert a + b == b;
    } else {
      var t := a[1..];
      assert (a + b)[0] == a[0];
      assert (a + b)[1..] == t + b;
      SurvivalAppend(t, b);
      Regroup(1.0 - a[0], Survival(t), Survival(b), Survival(t + b), Survival(a + b), Survival(a));
    }
  }

  /** `b` with its `i`-th element taken out. */
  function Without(b: seq<real>, i: int): (r: seq<real>)
    requires 0 <= i < |b|
    ensures |r| == |b| - 1
  {
    b[..i] + b[i + 1..]
  }

  lemma WithoutFirst(b: seq<real>)
    requires 0 < |b|
    ensures Without(b, 0) == b[1..]
  {
  }

  lemma WithoutTail(b: seq<real>, i: int)
    requires 0 < i < |b|
    ensures Without(b, i)[0] == b[0]
    ensures Without(b, i)[1..] == Without(b[1..], i - 1)
    ensures b[1..][i - 1] == b[i]
  {
  }

  /** Taking one reduction out of the stack divides out its factor. */
  lemma {:induction false} SurvivalRemoveAt(b: seq<real>, i: int)
    requires 0 <= i < |b|
    ensures Survival(b) == Survival(Without(b, i)) * (1.0 - b[i])
  {
    if i == 0 {
      SurvivalRemoveFirst(b);
    } else {
      SurvivalRemoveAt(b[1..], i - 1);
      WithoutTail(b, i);
      SurvivalRemoveLater(b, i);
    }
  }

  lemma SurvivalRemoveFirst(b: seq<real>)
    requires 0 < |b|
    ensures Survival(b) == Survival(Without(b, 0)) * (1.0 - b[0])
  {
    WithoutFirst(b);
    Swap(1.0 - b[0], Survival(b[1..]), Survival(b), Survival(Without(b, 0)) * (1.0 - b[0]));
  }

  /** The step of `SurvivalRemoveAt` for a position past the first: the
      first factor is shared by both sides. */
  lemma SurvivalRemoveLater(b: seq<real>, i: int)
    requires 0 < i < |b|
    requires Survival(b[1..]) == Survival(Without(b[1..], i - 1)) * (1.0 - b[i])
    ensures Survival(b) == Survival(Without(b, i)) * (1.0 - b[i])
  {
    var w := Without(b, i);
    WithoutTail(b, i);
    Regroup(1.0 - b[0], Survival(w[1..]), 1.0 - b[i], Survival(b[1..]), Survival(b), Survival(w));
  }

  /** Finds the first element of `a` in its permutation `b`; the rests are permutations too. */
  lemma MatchFirst(a: seq<real>, b: seq<real>) returns (i: int)
    requires multiset(a) == multiset(b) && a != []
    ensures 0 <= i < |b| && b[i] == a[0]
    ensures multiset(a[1..]) == multiset(Without(b, i))
  {
    assert a[0] in multiset(b) by {
      assert a[0] in multiset(a);
    }
    i :| 0 <= i < |b| && b[i] == a[0];
    MultisetRemove(a, b, i);
  }

  lemma MultisetRemove(a: seq<real>, b: seq<real>, i: int)
    requires multiset(a) == multiset(b) && a != []
    requires 0 <= i < |b| && b[i] == a[0]
    ensures multiset(a[1..]) == multiset(Without(b, i))
  {
    var x := a[0];
    assert a == [x] + a[1..];
    assert b == b[..i] + [x] + b[i + 1..];
    assert multiset(a[1..]) == multiset(a) - multiset{x};
    assert multiset(b[..i] + b[i + 1..]) == multiset(b[..i]) + multiset(b[i + 1..]);
    assert multiset(b) == multiset(b[..i]) + multiset{x} + multiset(b[i + 1..]);
  }

  /** The survival product depends only on which reductions are stacked, not their order. */
  lemma {:induction false} SurvivalPermutation(a: seq<real>, b: seq<real>)
    requires multiset(a) == multiset(b)
    ensures Survival(a) == Survival(b)
    decreases |a|
  {
    if a != [] {
      var i := MatchFirst(a, b);
      SurvivalPermutation(a[1..], Without(b, i));
      SurvivalRemoveAt(b, i);
      Swap(1.0 - a[0], Survival(a[1..]), Survival(a), Survival(b));
    }
  }

  /** The stacked reduction does not depend on the order of its arguments. */
  lemma GeneralReductionOrderFree(a: seq<real>, b: seq<real>)
    requires multiset(a) == multiset(b)
    ensures GeneralReduction(a) == GeneralReduction(b)
  {
    SurvivalPermutation(a, b);
  }

  lemma SurvivalPair(x: real, y: real)
    ensures Survival([x, y]) == (1.0 - x) * (1.0 - y)
  {
    assert [x, y][1..] == [y];
    assert [y][1..] == [];
    assert Survival([]) == 1.0;
    Regroup(1.0 - x, 1.0 - y, 1.0, Survival([y]), Survival([x, y]), (1.0 - x) * (1.0 - y));
  }

  lemma MulCongruence(p: real, q: real, p': real, q': real)
    requires p == p' && q == q'
    ensures p * q == p' * q'
  {
  }

  /** Stacking two groups of reductions is stacking the two groups' results. */
  lemma GeneralReductionNested(a: seq<real>, b: seq<real>)
    ensures GeneralReduction(a + b) == GeneralReduction([GeneralReduction(a), GeneralReduction(b)])
  {
    var x, y := GeneralReduction(a), GeneralReduction(b);
    SurvivalAppend(a, b);
    SurvivalOfGroups(a, b);
    GeneralIsComplement(a + b);
    GeneralIsComplement([x, y]);
  }

  /** Two stacked groups let through the product of what each group lets through. */
  lemma SurvivalOfGroups(a: seq<real>, b: seq<real>)
    ensures Survival([GeneralReduction(a), GeneralReduction(b)]) == Survival(a) * Survival(b)
  {
    var x, y := GeneralReduction(a), GeneralReduction(b);
    GeneralIsComplement(a);
    GeneralIsComplement(b);
    SurvivalPair(x, y);
    MulCongruence(1.0 - x, 1.0 - y, Survival(a), Survival(b));
  }

  /** Specialised protection counts double before the general protection curve. */
  function SpecProtectionReduction(protection: real, spec: real): (r: real)
    ensures r <= Cap
    ensures 0.0 <= spec ==> ProtectionReduction(protection) <= r
  {
    ProtectionReduction(protection + spec * 2.0)
  }

  /** Specialised evasion counts double before the general evasion steps. */
  function SpecEvasionReduction(evasion: real, spec: real): (r: real)
    ensures r <= Cap
    ensures 0.0 <= spec ==> EvasionReduction(evasion) <= r
  {
    EvasionMonotone(evasion, evasion + Max(spec, 0.0) * 2.0);
    EvasionReduction(evasion + spec * 2.0)
  }

  /** Nominal health: 20 base points plus the health bonus, times the percentage bonus. */
  function BaseHealth(g: Gear): real {
    (20.0 + PropertySum(g, "health")) * (1.0 + PropertySum(g, "health_p"))
  }

  /** Without a negative health or health-percentage sum a loadout has at
      least the 20 base points. */
  lemma BaseHealthAtLeast20(g: Gear)
    ensures 0.0 <= PropertySum(g, "health") && 0.0 <= PropertySum(g, "health_p") ==> 20.0 <= BaseHealth(g)
  {
    if 0.0 <= PropertySum(g, "health") && 0.0 <= PropertySum(g, "health_p") {
      MulMono(20.0, 20.0 + PropertySum(g, "health"), 1.0, 1.0 + PropertySum(g, "health_p"));
    }
  }

  /** 1/d shrinks as d grows, and is at least 1 for d in (0, 1]. */
  lemma Reciprocal(d: real, d': real)
    requires 0.0 < d <= d'
    ensures 1.0 / d' <= 1.0 / d
    ensures d' <= 1.0 ==> 1.0 <= 1.0 / d'
  {
    assert 1.0 / d - 1.0 / d' == (d' - d) / (d * d');
    assert 0.0 < d * d';
    assert 1.0 / d' - 1.0 == (1.0 - d') / d';
  }

  /** Scaling `h` by 1/d undoes a later multiplication by d, and never shrinks
      a non-negative `h` when d is in (0, 1]. */
  lemma ScaleByReciprocal(h: real, d: real)
    requires d != 0.0
    ensures h * (1.0 / d) * d == h
    ensures 0.0 <= h && 0.0 < d <= 1.0 ==> h <= h * (1.0 / d)
  {
    if 0.0 <= h && 0.0 < d <= 1.0 {
      Reciprocal(d, d);
      MulMono(h, h, 1.0, 1.0 / d);
    }
  }

  /** `h` inflated by the share of damage that gets past `reduction`. */
  function Inflate(h: real, reduction: real): real
    requires reduction != 1.0
  {
    h * (1.0 / (1.0 - reduction))
  }

  /** Health inflated by the damage that gets past `reduction`; undefined
      (a ZeroDivisionError) at reduction 1. */
  function EffectiveHealth(reduction: real, g: Gear): (eh: real)
    requires reduction != 1.0
    ensures 0.0 <= BaseHealth(g) && 0.0 <= reduction < 1.0 ==> BaseHealth(g) <= eh
  {
    ScaleByReciprocal(BaseHealth(g), 1.0 - reduction);
    Inflate(BaseHealth(g), reduction)
  }

  /** A larger reduction never lowers effective health. */
  lemma EffectiveHealthMonotone(r: real, r': real, g: Gear)
    requires r <= r' < 1.0 && 0.0 <= BaseHealth(g)
    ensures EffectiveHealth(r, g) <= EffectiveHealth(r', g)
  {
    InflateMonotone(BaseHealth(g), r, r');
  }

  lemma InflateMonotone(h: real, r: real, r': real)
    requires r <= r' < 1.0 && 0.0 <= h
    ensures Inflate(h, r) <= Inflate(h, r')
  {
    ScaleMonotone(h, 1.0 - r', 1.0 - r);
  }

  /** Effective health is the health that, reduced by `reduction`, leaves
      the nominal health. */
  lemma EffectiveHealthUndoesReduction(reduction: real, g: Gear)
    requires reduction != 1.0
    ensures EffectiveHealth(reduction, g) * (1.0 - reduction) == BaseHealth(g)
  {
    ScaleByReciprocal(BaseHealth(g), 1.0 - reduction);
  }

  lemma ScaleMonotone(h: real, d: real, d': real)
    requires 0.0 < d <= d' && 0.0 <= h
    ensures h * (1.0 / d') <= h * (1.0 / d)
  {
    Reciprocal(d, d');
    MulMono(h, h, 1.0 / d', 1.0 / d);
  }

  /** The reduction profile of one loadout. */
  datatype Reductions = Reductions(
    protection: real, armor: real, evasion: real,
    general: real, trueEffectiveHealth: real,
    projectile: real, blast: real, fire: real, featherFalling: real,
    ability: real, melee: real)

  /** What holds of every profile: each reduction at most 80%, the stacked one below 100%. */
  ghost predicate Capped(rd: Reductions) {
    && rd.protection <= Cap && rd.armor <= Cap && rd.evasion <= Cap
    && rd.projectile <= Cap && rd.blast <= Cap && rd.fire <= Cap && rd.featherFalling <= Cap
    && rd.ability <= Cap && rd.melee <= Cap
    && rd.general < 1.0
  }

  /** What holds when the attribute sums read are non-negative: every reduction in
      [0, 0.8], and the stacked one at most 1 - 0.2³. */
  ghost predicate InRange(rd: Reductions) {
    && 0.0 <= rd.protection && 0.0 <= rd.armor && 0.0 <= rd.evasion
    && 0.0 <= rd.projectile && 0.0 <= rd.blast && 0.0 <= rd.fire && 0.0 <= rd.featherFalling
    && 0.0 <= rd.ability && 0.0 <= rd.melee
    && Capped(rd)
    && 0.0 <= rd.general <= 1.0 - 0.008
  }

  lemma PowFifthCubed()
    ensures Pow(0.2, 3) == 0.008
  {
    assert Pow(0.2, 1) == 0.2;
    assert Pow(0.2, 2) == 0.04;
  }

  /** The reduction profile of a loadout whose toughness sum is not -8. */
  function Profile(g: Gear, expectedDamage: real): (rd: Reductions)
    requires ArmorDefined(PropertySum(g, "armor_t"))
    ensures Capped(rd)
  {
    var protection := PropertySum(g, "protection");
    var armor := PropertySum(g, "armor");
    var toughness := PropertySum(g, "armor_t");
    var evasion := PropertySum(g, "evasion");
    var p := ProtectionReduction(protection);
    var a := ArmorReduction(armor, toughness, expectedDamage);
    var e := EvasionReduction(evasion);
    var general := GeneralReduction([p, a, e]);
    Reductions(
      p, a, e, general, EffectiveHealth(general, g),
      SpecProtectionReduction(protection, PropertySum(g, "proj_protection")),
      SpecProtectionReduction(protection, PropertySum(g, "blast_protection")),
      SpecProtectionReduction(protection, PropertySum(g, "fire_protection")),
      SpecProtectionReduction(protection, PropertySum(g, "feather_falling")),
      SpecEvasionReduction(evasion, PropertySum(g, "ability_evasion")),
      SpecEvasionReduction(evasion, PropertySum(g, "melee_evasion")))
  }

  /** Every attribute sum `calc_damage_reduction` and `calc_effective_health`
      read is non-negative. Attributes no formula reads may be negative. */
  ghost predicate NonNegativeSums(g: Gear) {
    && 0.0 <= PropertySum(g, "protection") && 0.0 <= PropertySum(g, "armor")
    && 0.0 <= PropertySum(g, "armor_t") && 0.0 <= PropertySum(g, "evasion")
    && 0.0 <= PropertySum(g, "proj_protection") && 0.0 <= PropertySum(g, "blast_protection")
    && 0.0 <= PropertySum(g, "fire_protection") && 0.0 <= PropertySum(g, "feather_falling")
    && 0.0 <= PropertySum(g, "ability_evasion") && 0.0 <= PropertySum(g, "melee_evasion")
    && 0.0 <= PropertySum(g, "health") && 0.0 <= PropertySum(g, "health_p")
  }

  /** Two loadouts agree on every attribute sum the formulas read. */
  ghost predicate SameSums(g: Gear, g': Gear) {
    && PropertySum(g, "protection") == PropertySum(g', "protection")
    && PropertySum(g, "armor") == PropertySum(g', "armor")
    && PropertySum(g, "armor_t") == PropertySum(g', "armor_t")
    && PropertySum(g, "evasion") == PropertySum(g', "evasion")
    && PropertySum(g, "proj_protection") == PropertySum(g', "proj_protection")
    && PropertySum(g, "blast_protection") == PropertySum(g', "blast_protection")
    && PropertySum(g, "fire_protection") == PropertySum(g', "fire_protection")
    && PropertySum(g, "feather_falling") == PropertySum(g', "feather_falling")
    && PropertySum(g, "ability_evasion") == PropertySum(g', "ability_evasion")
    && PropertySum(g, "melee_evasion") == PropertySum(g', "melee_evasion")
    && PropertySum(g, "health") == PropertySum(g', "health")
    && PropertySum(g, "health_p") == PropertySum(g', "health_p")
  }

  /** A loadout without any negative attribute has non-negative sums. */
  lemma NonNegativeGearSums(g: Gear)
    ensures NonNegativeGear(g) ==> NonNegativeSums(g)
  {
  }

  /** The profile sees a loadout only through its twelve attribute sums:
      loadouts that agree on them have the same profile. */
  lemma ProfileBySums(g: Gear, g': Gear, expectedDamage: real)
    requires SameSums(g, g') && ArmorDefined(PropertySum(g, "armor_t"))
    ensures ArmorDefined(PropertySum(g', "armor_t"))
    ensures Profile(g, expectedDamage) == Profile(g', expectedDamage)
  {
    assert BaseHealth(g) == BaseHealth(g');
  }

  /** With non-negative sums every reduction lies in [0, 0.8], the stacked
      one in [0, 1 - 0.2³], and true effective health is at least nominal
      health. */
  lemma ProfileInRange(g: Gear, expectedDamage: real)
    ensures NonNegativeSums(g) ==>
              && ArmorDefined(PropertySum(g, "armor_t"))
              && InRange(Profile(g, expectedDamage))
              && BaseHealth(g) <= Profile(g, expectedDamage).trueEffectiveHealth
  {
    if !NonNegativeSums(g) {
      return;
    }
    var rd := Profile(g, expectedDamage);
    PowFifthCubed();
    assert 0.0 <= rd.general <= 1.0 - 0.008 by {
      var rs := [rd.protection, rd.armor, rd.evasion];
      assert rd.general == GeneralReduction(rs);
      assert forall i :: 0 <= i < |rs| ==> 0.0 <= rs[i] <= Cap;
    }
    BaseHealthAtLeast20(g);
  }

  /** `calc_damage_reduction`: the general and specialised reductions of a
      loadout, their stacked reduction and the loadout's true effective
      health. Raises only when the toughness sum is -8. */
  function DamageReduction(g: Gear, expectedDamage: real): (r: Result<Reductions>)
    ensures r.Failure? <==> !ArmorDefined(PropertySum(g, "armor_t"))
    ensures r.Failure? ==> r.error == ZeroDivision
    ensures r.Success? ==> Capped(r.value)
    ensures NonNegativeSums(g) ==>
              && r.Success? && InRange(r.value)
              && BaseHealth(g) <= r.value.trueEffectiveHealth
  {
    ProfileInRange(g, expectedDamage);
    if !ArmorDefined(PropertySum(g, "armor_t")) then Failure(ZeroDivision)
    else
      Success(Profile(g, expectedDamage))
  }

  /** Without any negative attribute, `calc_damage_reduction` succeeds in
      range with true effective health at least nominal health. */
  lemma NonNegativeGearInRange(g: Gear, expectedDamage: real)
    ensures NonNegativeGear(g) ==>
              && DamageReduction(g, expectedDamage).Success?
              && InRange(DamageReduction(g, expectedDamage).value)
              && BaseHealth(g) <= DamageReduction(g, expectedDamage).value.trueEffectiveHealth
  {
    NonNegativeGearSums(g);
  }
}

=== FILE: scenario.dfy ===
/** A worked run of the optimizer: one searched slot, "boots", holding two
    items with 5 and 10 protection, default options otherwise. Both loadouts
    are reported, the stronger one last. */
module Scenario {
  import opened Outcomes
  import opened Items
  import opened Settings
  import opened Filtering
  import opened Reduction
  import opened Scoring
  import opened Combinations
  import opened Search

  const BootsA := Item("boots_a", map["protection" := 5.0])
  const BootsB := Item("boots_b", map["protection" := 10.0])
  const BootsCatalog: Catalog := map["boots" := [BootsA, BootsB]]
  const BootsOptions := Options(None, [], ["boots"], map[], 20.0, true)

  /** Wearing one pair of boots. */
  lemma WearingOne(it: Item)
    ensures FromLoadout([Entry("boots", it)]) == Gear(["boots"], map["boots" := it])
  {
    assert [Entry("boots", it)][..0] == [];
  }

  /** Attribute sums of a loadout with one item, in any slot: that item's
      attributes, 0 for one it lacks. */
  lemma SumOfOne(slot: string, it: Item, property: string)
    ensures PropertySum(Gear([slot], map[slot := it]), property) == Attr(it, property)
  {
    var items := map[slot := it];
    assert [slot][..0] == [];
    assert SumOver([slot], items, property) == SumOver([], items, property) + SlotAttr(items, slot, property);
  }

  /** An item holding only protection contributes nothing to any other attribute. */
  lemma OnlyProtection(it: Item, p: real, property: string)
    requires it.data == map["protection" := p] && property != "protection"
    ensures PropertySum(Gear(["boots"], map["boots" := it]), property) == 0.0
  {
    SumOfOne("boots", it, property);
  }

  /** The attribute sums of boots with protection `p` and nothing else. */
  lemma BootsSums(it: Item, p: real)
    requires it.data == map["protection" := p]
    ensures var g := Gear(["boots"], map["boots" := it]);
            && PropertySum(g, "protection") == p
            && PropertySum(g, "armor") == 0.0
            && PropertySum(g, "armor_t") == 0.0
            && PropertySum(g, "evasion") == 0.0
            && PropertySum(g, "health") == 0.0
            && PropertySum(g, "health_p") == 0.0
  {
    SumOfOne("boots", it, "protection");
    assert "armor"[0] != "protection"[0];
    OnlyProtection(it, p, "armor");
    assert "armor_t"[0] != "protection"[0];
    OnlyProtection(it, p, "armor_t");
    assert "evasion"[0] != "protection"[0];
    OnlyProtection(it, p, "evasion");
    assert "health"[0] != "protection"[0];
    OnlyProtection(it, p, "health");
    assert "health_p"[0] != "protection"[0];
    OnlyProtection(it, p, "health_p");
  }

  lemma NoEvasion()
    ensures EvasionReduction(0.0) == 0.0
  {
    EvasionStep(0.0, 0);
  }

  /** Without armor or toughness, a non-negative expected hit leaves no armor reduction. */
  lemma NoArmor(ed: real)
    requires 0.0 <= ed
    ensures ArmorReduction(0.0, 0.0, ed) == 0.0
  {
    assert 0.0 - ed / (2.0 + 0.0 / 4.0) <= 0.0;
  }

  /** A loadout without armor, toughness or evasion has no armor or evasion
      reduction against a non-negative expected hit. */
  lemma NoArmorNoEvasion(g: Gear, ed: real)
    requires PropertySum(g, "armor") == 0.0 && PropertySum(g, "armor_t") == 0.0
    requires PropertySum(g, "evasion") == 0.0 && 0.0 <= ed
    ensures ArmorDefined(PropertySum(g, "armor_t"))
    ensures Profile(g, ed).armor == 0.0 && Profile(g, ed).evasion == 0.0
  {
    NoEvasion();
    NoArmor(ed);
  }

  /** A profile's stacked reduction stacks its three category reductions. */
  lemma ProfileStacks(g: Gear, ed: real)
    requires ArmorDefined(PropertySum(g, "armor_t"))
    ensures Profile(g, ed).general
         == GeneralReduction([Profile(g, ed).protection, Profile(g, ed).armor, Profile(g, ed).evasion])
  {
  }

  /** Without armor, toughness or evasion, and for a non-negative expected
      hit, the stacked reduction is the protection reduction. */
  lemma ProtectionOnlyGeneral(g: Gear, ed: real)
    requires PropertySum(g, "armor") == 0.0 && PropertySum(g, "armor_t") == 0.0
    requires PropertySum(g, "evasion") == 0.0 && 0.0 <= ed
    ensures ArmorDefined(PropertySum(g, "armor_t"))
    ensures Profile(g, ed).general == Profile(g, ed).protection
  {
    NoArmorNoEvasion(g, ed);
    ProfileStacks(g, ed);
    var rd := Profile(g, ed);
    StackOfOneLayer(rd.protection, rd.armor, rd.evasion);
  }

  /** A negative expected hit gives gear without armor or toughness an armor
      reduction, which is why `ProtectionOnlyGeneral` needs a non-negative one. */
  lemma NegativeHitArmor()
    ensures ArmorReduction(0.0, 0.0, -20.0) == 0.4
  {
  }

  /** Without health attributes a loadout has the 20 base points. */
  lemma NoHealthBonus(g: Gear)
    requires PropertySum(g, "health") == 0.0 && PropertySum(g, "health_p") == 0.0
    ensures BaseHealth(g) == 20.0
  {
  }

  /** Boots with protection `p` and nothing else score their 20 base health
      points inflated by the protection reduction. */
  lemma BootsScore(it: Item, p: real)
    requires it.data == map["protection" := p]
    ensures Evaluate(BootsOptions, [Entry("boots", it)]).Success?
    ensures Evaluate(BootsOptions, [Entry("boots", it)]).value.gear == Gear(["boots"], map["boots" := it])
    ensures Score(Evaluate(BootsOptions, [Entry("boots", it)]).value) == Inflate(20.0, ProtectionReduction(p))
  {
    var g := Gear(["boots"], map["boots" := it]);
    WearingOne(it);
    BootsSums(it, p);
    ProtectionOnlyGeneral(g, 20.0);
    NoHealthBonus(g);
    var rd := Profile(g, 20.0);
    assert DamageReduction(g, 20.0) == Success(rd);
    assert Unweighted(map[], SubTypes(Protection)) && Unweighted(map[], SubTypes(Evasion));
    ScoreWithoutScaling(g, 20.0, map[]);
  }

  lemma InflatedBoots()
    ensures Inflate(20.0, ProtectionReduction(5.0)) == 25.0
    ensures Inflate(20.0, ProtectionReduction(10.0)) == 100.0 / 3.0
  {
  }

  /** A stack whose other two layers are 0 is its first layer. */
  lemma StackOfOneLayer(x: real, y: real, z: real)
    requires y == 0.0 && z == 0.0
    ensures GeneralReduction([x, y, z]) == x
  {
    GeneralIsComplement([x, y, z]);
    SurvivalCons([x, y, z]);
    assert [x, y, z][1..] == [y, z];
    SurvivalCons([y, z]);
    assert [y, z][1..] == [z];
    SurvivalCons([z]);
    assert [z][1..] == [];
    assert Survival([]) == 1.0;
  }

  /** The boots catalog yields one list holding both pairs, so the search visits them in catalog order. */
  lemma BootsLoadouts()
    ensures GenerateGearList(BootsCatalog, BootsOptions)
         == Success([[Entry("boots", BootsA), Entry("boots", BootsB)]])
    ensures Product(GenerateGearList(BootsCatalog, BootsOptions).value)
         == [[Entry("boots", BootsA)], [Entry("boots", BootsB)]]
  {
    var ea, eb := Entry("boots", BootsA), Entry("boots", BootsB);
    var l := [ea, eb];
    assert LegalItem(BootsOptions, "boots_a") && LegalItem(BootsOptions, "boots_b");
    assert [BootsA, BootsB][1..] == [BootsB];
    assert [BootsB][1..] == [];
    assert SlotCandidates(BootsOptions, "boots", [BootsB]) == [eb];
    assert SlotCandidates(BootsOptions, "boots", [BootsA, BootsB]) == l;
    var types := BootsOptions.itemTypes;
    assert types[1..] == [];
    assert GearList(BootsCatalog, BootsOptions, []) == Success([]);
    assert types[0] == "boots" && !Skipped(BootsOptions, "boots");
    assert "boots" in BootsCatalog && BootsCatalog["boots"] == [BootsA, BootsB];
    assert [l] + [] == [l];
    assert GearList(BootsCatalog, BootsOptions, types) == Success([l]);
    var lists: seq<seq<Entry>> := [l];
    assert lists[1..] == [];
    assert Product(lists[1..]) == [[]];
    assert l[1..] == [eb];
    assert l[1..][1..] == [];
    assert Prepend(l[1..][1..], [[]]) == [];
    assert Prepend(l[1..], [[]]) == [[eb]];
    assert [ea] + [] == [ea];
    assert seq(1, j requires 0 <= j < 1 => [ea] + [[]][j]) == [[ea]];
    assert Prepend(l, [[]]) == [[ea], [eb]];
  }

  /** Two loadouts that both evaluate run to the end, in order. */
  lemma RunOfTwo(step: seq<Entry> -> Result<Report>, la: seq<Entry>, lb: seq<Entry>)
    requires step(la).Success? && step(lb).Success?
    ensures RunSteps(step, [la, lb]) == Run([step(la).value, step(lb).value], None)
  {
    var loadouts := [la, lb];
    assert loadouts[..0] == [];
    SuccessExtendsRun(step, loadouts, 0);
    assert loadouts[..1] == [la];
    SuccessExtendsRun(step, loadouts, 1);
    assert loadouts[..2] == loadouts;
  }

  /** Two loadouts scoring at least 0, the second at least as well as the first, are both reported. */
  lemma ReportsOfTwo(ra: Report, rb: Report)
    requires 0.0 <= Score(ra) <= Score(rb)
    ensures NewBests([ra, rb]) == [ra, rb]
  {
    NewBestsStep([], ra);
    assert [] + [ra] == [ra];
    NewBestsStep([ra], rb);
    assert [ra] + [rb] == [ra, rb];
  }

  /** Both pairs are reported, weaker first: 25 then 33⅓ effective health. */
  lemma BootsRun()
    ensures var run := RunSteps(Evaluator(BootsOptions), Product(GenerateGearList(BootsCatalog, BootsOptions).value));
            && run.fault == None
            && |NewBests(run.done)| == 2
            && NewBests(run.done)[0].gear == Gear(["boots"], map["boots" := BootsA])
            && NewBests(run.done)[1].gear == Gear(["boots"], map["boots" := BootsB])
            && Score(NewBests(run.done)[0]) == 25.0
            && Score(NewBests(run.done)[1]) == 100.0 / 3.0
  {
    BootsLoadouts();
    var la, lb := [Entry("boots", BootsA)], [Entry("boots", BootsB)];
    BootsScore(BootsA, 5.0);
    BootsScore(BootsB, 10.0);
    InflatedBoots();
    var step := Evaluator(BootsOptions);
    RunOfTwo(step, la, lb);
    ReportsOfTwo(step(la).value, step(lb).value);
  }
}

=== FILE: scoring.dfy ===
/** The scaled score of a loadout (`calc_reduction_score` and
    `scale_reduction_type`): each reduction category is blended with its
    specialised damage types according to the user's weights, the three
    blended values are stacked, and the stack is turned into an effective
    health figure, which is the number the search maximises. */
module Scoring {
  import opened Outcomes
  import opened Items
  import opened Reduction

  /** The specialised damage types, each scored against one category. */
  datatype DamageType = Projectile | Fire | Blast | FeatherFalling | Ability | Melee {

    /** The name the type goes by in the scaling table. */
    function Key(): string {
      match this
      case Projectile => "projectile"
      case Fire => "fire"
      case Blast => "blast"
      case FeatherFalling => "feather_falling"
      case Ability => "ability"
      case Melee => "melee"
    }
  }

  datatype Category = Protection | Armor | Evasion

  /** The damage types blended into each category, in the order the score visits them. */
  function SubTypes(c: Category): seq<DamageType> {
    match c
    case Protection => [Projectile, Fire, Blast, FeatherFalling]
    case Armor => []
    case Evasion => [Ability, Melee]
  }

  /** The user's weights, keyed by damage type name. */
  type Scaling = map<string, real>

  function SubReduction(rd: Reductions, t: DamageType): real {
    match t
    case Projectile => rd.projectile
    case Fire => rd.fire
    case Blast => rd.blast
    case FeatherFalling => rd.featherFalling
    case Ability => rd.ability
    case Melee => rd.melee
  }

  function CategoryReduction(rd: Reductions, c: Category): real {
    match c
    case Protection => rd.protection
    case Armor => rd.armor
    case Evasion => rd.evasion
  }

  /** The weight of a damage type; a type missing from the table takes no part. */
  function Weight(sc: Scaling, t: DamageType): real {
    if t.Key() in sc then sc[t.Key()] else 0.0
  }

  /** Sum of the weights of the types listed. */
  function WeightTotal(sc: Scaling, types: seq<DamageType>): real {
    if types == [] then 0.0
    else WeightTotal(sc, types[..|types| - 1]) + Weight(sc, types[|types| - 1])
  }

  /** Weighted sum of the specialised reductions of the types listed. */
  function ScaledPart(rd: Reductions, sc: Scaling, types: seq<DamageType>): real {
    if types == [] then 0.0
    else
      var t := types[|types| - 1];
      ScaledPart(rd, sc, types[..|types| - 1]) + SubReduction(rd, t) * Weight(sc, t)
  }

  /** No type listed appears in the scaling table. */
  predicate Unweighted(sc: Scaling, types: seq<DamageType>) {
    forall i :: 0 <= i < |types| ==> types[i].Key() !in sc
  }

  /** `scale_reduction_type`: the weighted specialised reductions, plus the
      category's own reduction weighted by whatever weight remains. */
  function ScaleReductionType(rd: Reductions, sc: Scaling, types: seq<DamageType>, c: Category): (r: real)
    ensures Unweighted(sc, types) ==> r == CategoryReduction(rd, c)
    ensures WeightTotal(sc, types) == 1.0 ==> r == ScaledPart(rd, sc, types)
  {
    UnweightedIsZero(rd, sc, types);
    ScaledPart(rd, sc, types) + CategoryReduction(rd, c) * (1.0 - WeightTotal(sc, types))
  }

  /** Remainder weighting, one type at a time: listing one more type moves
      its weight from the category's own reduction to the type's
      specialised reduction. With the unweighted case this fixes the blend
      for every weight table. */
  lemma {:induction false} ScaleReductionTypeStep(rd: Reductions, sc: Scaling, types: seq<DamageType>, t: DamageType, c: Category)
    ensures ScaleReductionType(rd, sc, types + [t], c)
         == ScaleReductionType(rd, sc, types, c) + Weight(sc, t) * (SubReduction(rd, t) - CategoryReduction(rd, c))
  {
    var all := types + [t];
    assert all[..|all| - 1] == types;
  }

  /** A projectile weight of 0.5 and nothing else gives projectile protection
      and general protection equal consideration. */
  lemma HalfProjectile(rd: Reductions)
    ensures ScaleReductionType(rd, map["projectile" := 0.5], SubTypes(Protection), Protection)
         == 0.5 * rd.projectile + 0.5 * rd.protection
  {
    var sc := map["projectile" := 0.5];
    assert Weight(sc, Projectile) == 0.5;
    assert "fire"[0] != "projectile"[0] && "blast"[0] != "projectile"[0] && "feather_falling"[0] != "projectile"[0];
    assert Weight(sc, Fire) == 0.0 && Weight(sc, Blast) == 0.0 && Weight(sc, FeatherFalling) == 0.0;
    assert ScaleReductionType(rd, sc, [], Protection) == rd.protection;
    ScaleReductionTypeStep(rd, sc, [], Projectile, Protection);
    assert [] + [Projectile] == [Projectile];
    ScaleReductionTypeStep(rd, sc, [Projectile], Fire, Protection);
    assert [Projectile] + [Fire] == [Projectile, Fire];
    ScaleReductionTypeStep(rd, sc, [Projectile, Fire], Blast, Protection);
    assert [Projectile, Fire] + [Blast] == [Projectile, Fire, Blast];
    ScaleReductionTypeStep(rd, sc, [Projectile, Fire, Blast], FeatherFalling, Protection);
    assert [Projectile, Fire, Blast] + [FeatherFalling] == SubTypes(Protection);
  }

  lemma {:induction false} UnweightedIsZero(rd: Reductions, sc: Scaling, types: seq<DamageType>)
    ensures Unweighted(sc, types) ==> WeightTotal(sc, types) == 0.0 && ScaledPart(rd, sc, types) == 0.0
  {
    if types != [] && Unweighted(sc, types) {
      var prefix := types[..|types| - 1];
      assert Unweighted(sc, prefix) by {
        assert forall i :: 0 <= i < |prefix| ==> prefix[i] == types[i];
      }
      UnweightedIsZero(rd, sc, prefix);
    }
  }

  /** The armor category has no specialised types, so it always scores its own reduction. */
  lemma ArmorScoresGeneral(rd: Reductions, sc: Scaling)
    ensures ScaleReductionType(rd, sc, SubTypes(Armor), Armor) == rd.armor
  {
  }

  /** Weights that take no part in a category's blend are harmless: every
      listed weight is non-negative, and together they do not exceed 1. */
  ghost predicate SaneWeights(sc: Scaling, types: seq<DamageType>) {
    (forall i :: 0 <= i < |types| ==> 0.0 <= Weight(sc, types[i])) && WeightTotal(sc, types) <= 1.0
  }

  ghost predicate SaneScaling(sc: Scaling) {
    SaneWeights(sc, SubTypes(Protection)) && SaneWeights(sc, SubTypes(Evasion))
  }

  /** The specialised reductions of the listed types and the category's own all lie in [0, 0.8]. */
  ghost predicate BlendInRange(rd: Reductions, types: seq<DamageType>, c: Category) {
    && (forall i :: 0 <= i < |types| ==> 0.0 <= SubReduction(rd, types[i]) <= Cap)
    && 0.0 <= CategoryReduction(rd, c) <= Cap
  }

  /** With non-negative weights the weighted part is at most 0.8 times the total weight. */
  lemma {:induction false} ScaledPartBounds(rd: Reductions, sc: Scaling, types: seq<DamageType>, c: Category)
    requires BlendInRange(rd, types, c)
    requires forall i :: 0 <= i < |types| ==> 0.0 <= Weight(sc, types[i])
    ensures 0.0 <= WeightTotal(sc, types)
    ensures 0.0 <= ScaledPart(rd, sc, types) <= Cap * WeightTotal(sc, types)
  {
    if types != [] {
      var prefix := types[..|types| - 1];
      var t := types[|types| - 1];
      assert forall i :: 0 <= i < |prefix| ==> prefix[i] == types[i];
      ScaledPartBounds(rd, sc, prefix, c);
      BoundStep(ScaledPart(rd, sc, prefix), WeightTotal(sc, prefix), SubReduction(rd, t), Weight(sc, t));
    }
  }

  /** Adding one more term worth at most 0.8 per unit of its weight keeps the bound. */
  lemma BoundStep(part: real, w: real, x: real, wx: real)
    requires 0.0 <= part <= Cap * w && 0.0 <= x <= Cap && 0.0 <= wx
    ensures 0.0 <= part + x * wx <= Cap * (w + wx)
  {
    MulMono(0.0, x, 0.0, wx);
    MulMono(x, Cap, wx, wx);
  }

  /** Under sane weights the blend is a convex combination, so it stays in [0, 0.8]. */
  lemma ScaleBounds(rd: Reductions, sc: Scaling, types: seq<DamageType>, c: Category)
    requires BlendInRange(rd, types, c) && SaneWeights(sc, types)
    ensures 0.0 <= ScaleReductionType(rd, sc, types, c) <= Cap
  {
    ScaledPartBounds(rd, sc, types, c);
    ConvexBound(ScaledPart(rd, sc, types), WeightTotal(sc, types), CategoryReduction(rd, c));
  }

  /** A part worth at most 0.8 per unit of weight `w`, plus a value in
      [0, 0.8] weighted by the rest, lies in [0, 0.8]. */
  lemma ConvexBound(part: real, w: real, cat: real)
    requires 0.0 <= part <= Cap * w && w <= 1.0 && 0.0 <= cat <= Cap
    ensures 0.0 <= part + cat * (1.0 - w) <= Cap
  {
    MulMono(0.0, cat, 0.0, 1.0 - w);
    MulMono(cat, Cap, 1.0 - w, 1.0 - w);
  }

  /** A category's scaled reduction, as `calc_reduction_score` requests it. */
  function ScaledCategory(rd: Reductions, sc: Scaling, c: Category): real {
    ScaleReductionType(rd, sc, SubTypes(c), c)
  }

  /** The scaled figures `calc_reduction_score` adds to the reduction data. */
  datatype Scored = Scored(
    scaledProtection: real, scaledArmor: real, scaledEvasion: real,
    score: real, scaledEffectiveHealth: real)

  /** Three stacked reductions let nothing through exactly when one of them is total. */
  lemma StackOfThreeBlocks(x: real, y: real, z: real)
    ensures GeneralReduction([x, y, z]) == 1.0 <==> x == 1.0 || y == 1.0 || z == 1.0
  {
    assert [x, y, z][1..] == [y, z];
    assert [y, z][1..] == [z];
    assert [z][1..] == [];
    GeneralIsComplement([x, y, z]);
    SurvivalZero([x, y, z]);
    SurvivalZero([y, z]);
    SurvivalZero([z]);
    assert Survival([]) == 1.0;
  }

  /** `calc_reduction_score`: blends each category, stacks the three blends
      into the score and turns it into the scaled effective health. A score
      of exactly 1, which needs one blend to be exactly 1, divides by zero. */
  function ReductionScore(rd: Reductions, g: Gear, sc: Scaling): (r: Result<Scored>)
    ensures r.Failure? <==>
              || ScaledCategory(rd, sc, Protection) == 1.0
              || ScaledCategory(rd, sc, Armor) == 1.0
              || ScaledCategory(rd, sc, Evasion) == 1.0
    ensures r.Failure? ==> r.error == ZeroDivision
    ensures r.Success? ==> r.value.scaledArmor == rd.armor
    ensures SaneScaling(sc) && InRange(rd) ==>
              && r.Success?
              && 0.0 <= r.value.score <= 1.0 - 0.008
              && (0.0 <= BaseHealth(g) ==> BaseHealth(g) <= r.value.scaledEffectiveHealth)
  {
    var sp := ScaledCategory(rd, sc, Protection);
    var sa := ScaledCategory(rd, sc, Armor);
    var se := ScaledCategory(rd, sc, Evasion);
    StackOfThreeBlocks(sp, sa, se);
    ScoreInRange(rd, sc);
    var score := GeneralReduction([sp, sa, se]);
    if score == 1.0 then Failure(ZeroDivision)
    else Success(Scored(sp, sa, se, score, EffectiveHealth(score, g)))
  }

  /** Under sane weights and in-range reductions every blend lies in [0, 0.8]
      and so the stacked score lies in [0, 1 - 0.2³]. */
  lemma ScoreInRange(rd: Reductions, sc: Scaling)
    ensures SaneScaling(sc) && InRange(rd) ==>
              var s := GeneralReduction([ScaledCategory(rd, sc, Protection),
                                         ScaledCategory(rd, sc, Armor),
                                         ScaledCategory(rd, sc, Evasion)]);
              0.0 <= s <= 1.0 - 0.008
  {
    if SaneScaling(sc) && InRange(rd) {
      ScaleBounds(rd, sc, SubTypes(Protection), Protection);
      ScaleBounds(rd, sc, SubTypes(Evasion), Evasion);
      var rs := [ScaledCategory(rd, sc, Protection), ScaledCategory(rd, sc, Armor), ScaledCategory(rd, sc, Evasion)];
      assert forall i :: 0 <= i < |rs| ==> 0.0 <= rs[i] <= Cap;
      PowFifthCubed();
    }
  }

  /** Without any weight for the specialised types (the default, an empty
      table) a loadout's score is its stacked reduction and its scaled
      effective health is its true effective health. */
  lemma ScoreWithoutScaling(g: Gear, expectedDamage: real, sc: Scaling)
    requires ArmorDefined(PropertySum(g, "armor_t"))
    requires Unweighted(sc, SubTypes(Protection)) && Unweighted(sc, SubTypes(Evasion))
    ensures var rd := Profile(g, expectedDamage);
            ReductionScore(rd, g, sc)
              == Success(Scored(rd.protection, rd.armor, rd.evasion, rd.general, rd.trueEffectiveHealth))
  {
  }
}

=== FILE: search.dfy ===
/** The search itself (`optimize_gear`): every combination of one candidate
    per slot list is evaluated in `itertools.product` order, and a loadout
    is reported whenever its scaled effective health reaches the best seen
    so far (starting from 0). */
module Search {
  import opened Outcomes
  import opened Items
  import opened Settings
  import opened Filtering
  import opened Reduction
  import opened Scoring
  import opened Combinations

  // ---------------------------------------------------------------------
  // Evaluating one loadout
  // ---------------------------------------------------------------------

  /** What the run prints for a reported loadout. */
  datatype Report = Report(gear: Gear, reductions: Reductions, scored: Scored)

  /** The figure the search maximises: the scaled effective health. */
  function Score(report: Report): real {
    report.scored.scaledEffectiveHealth
  }

  /** One iteration's work: build the loadout, compute its reductions and
      score it. A ZeroDivisionError in either step aborts. */
  function Evaluate(opts: Options, loadout: seq<Entry>): (r: Result<Report>)
    ensures var g := FromLoadout(loadout);
            var dr := DamageReduction(g, opts.expectedDamage);
            r.Failure? <==> dr.Failure? || ReductionScore(dr.value, g, opts.typeScaling).Failure?
    ensures r.Failure? ==> r.error == ZeroDivision
    ensures r.Success? ==>
              && r.value.gear == FromLoadout(loadout)
              && DamageReduction(r.value.gear, opts.expectedDamage) == Success(r.value.reductions)
              && ReductionScore(r.value.reductions, r.value.gear, opts.typeScaling) == Success(r.value.scored)
              && r.value.scored.scaledArmor == r.value.reductions.armor
    ensures NonNegativeSums(FromLoadout(loadout)) && SaneScaling(opts.typeScaling) ==>
              && r.Success?
              && 20.0 <= r.value.reductions.trueEffectiveHealth
              && 20.0 <= Score(r.value)
  {
    var g := FromLoadout(loadout);
    BaseHealthAtLeast20(g);
    var rd :- DamageReduction(g, opts.expectedDamage);
    var scored :- ReductionScore(rd, g, opts.typeScaling);
    Success(Report(g, rd, scored))
  }

  /** `Evaluate` as the step the run applies to each loadout. */
  function Evaluator(opts: Options): seq<Entry> -> Result<Report> {
    loadout => Evaluate(opts, loadout)
  }

  /** The values computed before a run stopped, and the fault that stopped
      it, if any. */
  datatype Run<+R> = Run(done: seq<R>, fault: Option<Fault>)

  /** Applies `step` to the inputs in order; the first fault ends the run,
      as an uncaught exception ends the optimizer's loop. */
  function RunSteps<X, R>(step: X -> Result<R>, xs: seq<X>): (r: Run<R>)
    ensures |r.done| <= |xs|
    ensures forall i :: 0 <= i < |r.done| ==> step(xs[i]) == Success(r.done[i])
    ensures r.fault.None? ==> |r.done| == |xs|
    ensures r.fault.Some? ==> |r.done| < |xs| && step(xs[|r.done|]) == Failure(r.fault.value)
  {
    if xs == [] then Run([], None)
    else
      var n := |xs| - 1;
      var before := RunSteps(step, xs[..n]);
      assert forall i :: 0 <= i < n ==> xs[..n][i] == xs[i];
      if before.fault.Some? then before
      else
        match step(xs[n])
        case Failure(e) => Run(before.done, Some(e))
        case Success(v) => Run(before.done + [v], None)
  }

  /** A run that has not faulted before input `k` grows by that input's value when it succeeds. */
  lemma SuccessExtendsRun<X, R>(step: X -> Result<R>, xs: seq<X>, k: nat)
    requires k < |xs| && RunSteps(step, xs[..k]).fault.None? && step(xs[k]).Success?
    ensures RunSteps(step, xs[..k + 1]) == Run(RunSteps(step, xs[..k]).done + [step(xs[k]).value], None)
  {
    assert xs[..k + 1][..k] == xs[..k];
  }

  /** A run that has not faulted before input `k` ends with that input's fault when it fails. */
  lemma FaultEndsRun<X, R>(step: X -> Result<R>, xs: seq<X>, k: nat)
    requires k < |xs| && RunSteps(step, xs[..k]).fault.None? && step(xs[k]).Failure?
    ensures RunSteps(step, xs) == Run(RunSteps(step, xs[..k]).done, Some(step(xs[k]).error))
  {
    assert xs[..k + 1][..k] == xs[..k];
    FaultIsFinal(step, xs, k + 1);
  }

  /** Once a fault has stopped the run, later inputs change nothing. */
  lemma {:induction false} FaultIsFinal<X, R>(step: X -> Result<R>, xs: seq<X>, k: nat)
    requires k <= |xs| && RunSteps(step, xs[..k]).fault.Some?
    ensures RunSteps(step, xs) == RunSteps(step, xs[..k])
    decreases |xs|
  {
    if k < |xs| {
      var n := |xs| - 1;
      assert xs[..n][..k] == xs[..k];
      FaultIsFinal(step, xs[..n], k);
    } else {
      assert xs[..k] == xs;
    }
  }

  // ---------------------------------------------------------------------
  // Reporting
  // ---------------------------------------------------------------------

  /** Loadout `i` is reported: its score is non-negative and no earlier
      loadout scored more. */
  ghost predicate IsNewBest(evaluated: seq<Report>, i: int)
    requires 0 <= i < |evaluated|
  {
    0.0 <= Score(evaluated[i]) && forall j :: 0 <= j < i ==> Score(evaluated[j]) <= Score(evaluated[i])
  }

  /** The reported loadouts, in evaluation order. */
  ghost function NewBests(evaluated: seq<Report>): seq<Report> {
    if evaluated == [] then []
    else
      var n := |evaluated| - 1;
      NewBests(evaluated[..n]) + if IsNewBest(evaluated, n) then [evaluated[n]] else []
  }

  /** The best score seen so far, starting from 0. */
  function RunningMax(evaluated: seq<Report>): (m: real)
    ensures 0.0 <= m
    ensures forall j :: 0 <= j < |evaluated| ==> Score(evaluated[j]) <= m
    ensures m == 0.0 || exists j :: 0 <= j < |evaluated| && m == Score(evaluated[j])
  {
    if evaluated == [] then 0.0
    else
      var n := |evaluated| - 1;
      var m' := RunningMax(evaluated[..n]);
      assert forall j :: 0 <= j < n ==> evaluated[..n][j] == evaluated[j];
      Max(m', Score(evaluated[n]))
  }

  /** The running comparison the loop makes decides exactly the reporting rule. */
  lemma NewBestIffReachesMax(evaluated: seq<Report>, report: Report)
    ensures IsNewBest(evaluated + [report], |evaluated|) <==> RunningMax(evaluated) <= Score(report)
  {
    var all := evaluated + [report];
    assert forall j :: 0 <= j < |evaluated| ==> all[j] == evaluated[j];
  }

  /** Appending a loadout reports it exactly when it reaches the running maximum. */
  lemma NewBestsStep(evaluated: seq<Report>, report: Report)
    ensures NewBests(evaluated + [report])
         == NewBests(evaluated) + if RunningMax(evaluated) <= Score(report) then [report] else []
  {
    assert (evaluated + [report])[..|evaluated|] == evaluated;
    NewBestIffReachesMax(evaluated, report);
  }

  /** `report` is the loadout of some new best. */
  ghost predicate ReportedFrom(evaluated: seq<Report>, report: Report) {
    exists i :: 0 <= i < |evaluated| && IsNewBest(evaluated, i) && report == evaluated[i]
  }

  /** Every reported loadout is a new best, and every new best is reported. */
  lemma {:induction false} NewBestsExact(evaluated: seq<Report>)
    ensures forall k :: 0 <= k < |NewBests(evaluated)| ==> ReportedFrom(evaluated, NewBests(evaluated)[k])
    ensures forall i :: 0 <= i < |evaluated| && IsNewBest(evaluated, i) ==> evaluated[i] in NewBests(evaluated)
  {
    if evaluated != [] {
      var n := |evaluated| - 1;
      var prefix := evaluated[..n];
      NewBestsExact(prefix);
      assert forall i :: 0 <= i < n ==> prefix[i] == evaluated[i];
      assert forall i :: 0 <= i < n ==> (IsNewBest(prefix, i) <==> IsNewBest(evaluated, i));
      var nb := NewBests(evaluated);
      forall k | 0 <= k < |nb|
        ensures ReportedFrom(evaluated, nb[k])
      {
        if k < |NewBests(prefix)| {
          assert nb[k] == NewBests(prefix)[k];
          assert ReportedFrom(prefix, nb[k]);
          var i :| 0 <= i < n && IsNewBest(prefix, i) && nb[k] == prefix[i];
          assert IsNewBest(evaluated, i);
        } else {
          assert IsNewBest(evaluated, n) && nb[k] == evaluated[n];
        }
      }
    }
  }

  /** Reported scores are non-negative and never decrease. */
  lemma {:induction false} NewBestsAscend(evaluated: seq<Report>)
    ensures forall k :: 0 <= k < |NewBests(evaluated)| ==> 0.0 <= Score(NewBests(evaluated)[k])
    ensures forall k, l :: 0 <= k < l < |NewBests(evaluated)| ==>
              Score(NewBests(evaluated)[k]) <= Score(NewBests(evaluated)[l])
  {
    if evaluated != [] {
      var n := |evaluated| - 1;
      var prefix := evaluated[..n];
      NewBestsAscend(prefix);
      NewBestsExact(prefix);
      var nb := NewBests(evaluated);
      if IsNewBest(evaluated, n) {
        forall k | 0 <= k < |NewBests(prefix)|
          ensures Score(nb[k]) <= Score(evaluated[n])
        {
          assert ReportedFrom(prefix, NewBests(prefix)[k]);
          var i :| 0 <= i < n && IsNewBest(prefix, i) && NewBests(prefix)[k] == prefix[i];
          assert prefix[i] == evaluated[i];
        }
      }
    }
  }

  /** When some loadout scores at least 0, something is reported and the
      last report holds the best score of the run. */
  lemma {:induction false} LastReportIsBest(evaluated: seq<Report>)
    requires exists i :: 0 <= i < |evaluated| && 0.0 <= Score(evaluated[i])
    ensures NewBests(evaluated) != []
    ensures forall i :: 0 <= i < |evaluated| ==> Score(evaluated[i]) <= Score(NewBests(evaluated)[|NewBests(evaluated)| - 1])
  {
    var n := |evaluated| - 1;
    var prefix := evaluated[..n];
    assert forall i :: 0 <= i < n ==> prefix[i] == evaluated[i];
    assert evaluated == prefix + [evaluated[n]];
    NewBestsStep(prefix, evaluated[n]);
    var m := RunningMax(prefix);
    if m <= Score(evaluated[n]) {
      // the last loadout is reported, and it beats every earlier one
    } else {
      // the best of the prefix is positive, so the prefix reported it last
      var j :| 0 <= j < n && m == Score(prefix[j]);
      LastReportIsBest(prefix);
    }
  }

  /** Nothing is reported exactly when every loadout scores below 0. */
  lemma {:induction false} NothingReported(evaluated: seq<Report>)
    ensures NewBests(evaluated) == [] <==> forall i :: 0 <= i < |evaluated| ==> Score(evaluated[i]) < 0.0
  {
    NewBestsExact(evaluated);
    if NewBests(evaluated) != [] {
      assert ReportedFrom(evaluated, NewBests(evaluated)[0]);
    }
    if exists i :: 0 <= i < |evaluated| && 0.0 <= Score(evaluated[i]) {
      LastReportIsBest(evaluated);
    }
  }

  // ---------------------------------------------------------------------
  // The run
  // ---------------------------------------------------------------------

  /** `optimize_gear`: the reports the run prints, and the exception that
      ended it early, if any. A KeyError while listing candidates aborts
      before anything is evaluated; a ZeroDivisionError ends the run after
      the reports already printed. */
  method OptimizeGear(catalog: Catalog, opts: Options) returns (reports: seq<Report>, fault: Option<Fault>)
    ensures GenerateGearList(catalog, opts).Failure? ==>
              reports == [] && fault == Some(GenerateGearList(catalog, opts).error)
    ensures GenerateGearList(catalog, opts).Success? ==>
              var run := RunSteps(Evaluator(opts), Product(GenerateGearList(catalog, opts).value));
              reports == NewBests(run.done) && fault == run.fault
  {
    var gearList := GenerateGearList(catalog, opts);
    if gearList.Failure? {
      return [], Some(gearList.error);
    }
    reports, fault := ReportNewBests(Evaluator(opts), Product(gearList.value));
  }

  /** The loop of `optimize_gear`: evaluates the loadouts in order, keeping
      the best score so far (starting from 0) and reporting every loadout
      that reaches it, until a fault ends the run. */
  method ReportNewBests(evaluate: seq<Entry> -> Result<Report>, loadouts: seq<seq<Entry>>)
    returns (reports: seq<Report>, fault: Option<Fault>)
    ensures reports == NewBests(RunSteps(evaluate, loadouts).done)
    ensures fault == RunSteps(evaluate, loadouts).fault
  {
    var prevScore := 0.0;
    ghost var evaluated: seq<Report> := [];
    reports := [];
    for k := 0 to |loadouts|
      invariant RunSteps(evaluate, loadouts[..k]) == Run(evaluated, None)
      invariant prevScore == RunningMax(evaluated)
      invariant reports == NewBests(evaluated)
    {
      var outcome := evaluate(loadouts[k]);
      if outcome.Failure? {
        FaultEndsRun(evaluate, loadouts, k);
        return reports, Some(outcome.error);
      }
      var report := outcome.value;
      SuccessExtendsRun(evaluate, loadouts, k);
      NewBestsStep(evaluated, report);
      if Score(report) >= prevScore {
        prevScore := Score(report);
        reports := reports + [report];
      }
      evaluated := evaluated + [report];
    }
    assert loadouts[..|loadouts|] == loadouts;
    fault := None;
  }

  /** No catalog item has a negative attribute. */
  ghost predicate NonNegativeCatalog(catalog: Catalog) {
    forall t, item :: t in catalog && item in catalog[t] ==> NonNegativeItem(item)
  }

  /** Every item type searched (a skipped weapon slot aside) is in the catalog. */
  predicate TypesListed(catalog: Catalog, opts: Options) {
    forall i :: 0 <= i < |opts.itemTypes| && !Skipped(opts, opts.itemTypes[i]) ==> opts.itemTypes[i] in catalog
  }

  /** Every combination the search visits draws only from the catalog. */
  lemma CombinationsFromCatalog(catalog: Catalog, opts: Options, loadout: seq<Entry>)
    requires GenerateGearList(catalog, opts).Success?
    requires loadout in Product(GenerateGearList(catalog, opts).value)
    ensures forall i :: 0 <= i < |loadout| ==> loadout[i].slot in catalog && loadout[i].item in catalog[loadout[i].slot]
  {
    var lists := GenerateGearList(catalog, opts).value;
    ProductMembership(lists, loadout);
    assert forall i :: 0 <= i < |loadout| ==> loadout[i] in lists[i];
  }

  /** The run evaluated all `n` loadouts without fault, each scoring at
      least 20, and its last report holds the best score of all. */
  ghost predicate FindsOptimum(run: Run<Report>, n: nat) {
    && run.fault.None?
    && |run.done| == n
    && (forall i :: 0 <= i < |run.done| ==> 20.0 <= Score(run.done[i]))
    && NewBests(run.done) != []
    && forall i :: 0 <= i < |run.done| ==>
         Score(run.done[i]) <= Score(NewBests(run.done)[|NewBests(run.done)| - 1])
  }

  /** A run whose every step succeeds with a score of at least 20 never
      faults, and its last report holds the best score of all. */
  lemma RunOfGoodSteps(step: seq<Entry> -> Result<Report>, loadouts: seq<seq<Entry>>)
    requires 0 < |loadouts|
    requires forall k :: 0 <= k < |loadouts| ==> step(loadouts[k]).Success? && 20.0 <= Score(step(loadouts[k]).value)
    ensures FindsOptimum(RunSteps(step, loadouts), |loadouts|)
  {
    var run := RunSteps(step, loadouts);
    assert 20.0 <= Score(run.done[0]);
    LastReportIsBest(run.done);
  }

  /** The search visits at least one combination, and without negative
      catalog attributes none of them has a negative attribute. */
  lemma CatalogCombinations(catalog: Catalog, opts: Options)
    requires GenerateGearList(catalog, opts).Success?
    ensures 0 < |Product(GenerateGearList(catalog, opts).value)|
    ensures NonNegativeCatalog(catalog) ==>
              var loadouts := Product(GenerateGearList(catalog, opts).value);
              forall k :: 0 <= k < |loadouts| ==> NonNegativeEntries(loadouts[k])
  {
    var lists := GenerateGearList(catalog, opts).value;
    var loadouts := Product(lists);
    GearListLists(catalog, opts, opts.itemTypes);
    ProductCount(lists);
    CountPositive(lists);
    if NonNegativeCatalog(catalog) {
      forall k | 0 <= k < |loadouts|
        ensures NonNegativeEntries(loadouts[k])
      {
        CombinationsFromCatalog(catalog, opts, loadouts[k]);
      }
    }
  }

  /** A loadout without negative attribute sums, scored with sane weights,
      evaluates without fault to at least 20. */
  lemma SafeLoadout(opts: Options, loadout: seq<Entry>)
    requires SaneScaling(opts.typeScaling) && NonNegativeSums(FromLoadout(loadout))
    ensures Evaluator(opts)(loadout).Success? && 20.0 <= Score(Evaluator(opts)(loadout).value)
  {
  }

  /** Loadouts without negative attribute sums, scored with sane weights, run
      without fault, each scoring at least 20, and the last report holds
      the best score of all. */
  lemma SafeRun(opts: Options, loadouts: seq<seq<Entry>>)
    requires SaneScaling(opts.typeScaling) && 0 < |loadouts|
    requires forall k :: 0 <= k < |loadouts| ==> NonNegativeSums(FromLoadout(loadouts[k]))
    ensures FindsOptimum(RunSteps(Evaluator(opts), loadouts), |loadouts|)
  {
    SafeLoadouts(opts, loadouts);
    RunOfGoodSteps(Evaluator(opts), loadouts);
  }

  lemma SafeLoadouts(opts: Options, loadouts: seq<seq<Entry>>)
    requires SaneScaling(opts.typeScaling)
    requires forall k :: 0 <= k < |loadouts| ==> NonNegativeSums(FromLoadout(loadouts[k]))
    ensures forall k :: 0 <= k < |loadouts| ==>
              Evaluator(opts)(loadouts[k]).Success? && 20.0 <= Score(Evaluator(opts)(loadouts[k]).value)
  {
    forall k | 0 <= k < |loadouts|
      ensures Evaluator(opts)(loadouts[k]).Success? && 20.0 <= Score(Evaluator(opts)(loadouts[k]).value)
    {
      SafeLoadout(opts, loadouts[k]);
    }
  }

  /** With every searched type in the catalog, no negative attribute and
      sane weights, the run never faults: it evaluates every combination,
      each scores at least the 20 base health points, and the last report
      holds the best score of all. */
  lemma SafeRunFindsOptimum(catalog: Catalog, opts: Options)
    requires TypesListed(catalog, opts) && NonNegativeCatalog(catalog) && SaneScaling(opts.typeScaling)
    ensures GenerateGearList(catalog, opts).Success?
    ensures var loadouts := Product(GenerateGearList(catalog, opts).value);
            FindsOptimum(RunSteps(Evaluator(opts), loadouts), |loadouts|)
  {
    var lists := GenerateGearList(catalog, opts).value;
    var loadouts := Product(lists);
    CatalogCombinations(catalog, opts);
    forall k | 0 <= k < |loadouts|
      ensures NonNegativeSums(FromLoadout(loadouts[k]))
    {
      NonNegativeLoadout(loadouts[k]);
      NonNegativeGearSums(FromLoadout(loadouts[k]));
    }
    SafeRun(opts, loadouts);
  }
}
